=== FILE: README.md ===
# Approval gate — a Dafny model

backstage-hook is a local approval gate. Plugins propose commands
("actions"), and a human reviewer answers each one with **Allow**, **Always
allow** or **Deny**. This project models the decision logic of that gate as
pure functions over immutable values, and proves the properties the Go code
relies on. The model covers:

- the closed policy vocabulary and its lookups (`policies.dfy`);
- actions, the command line shown to the reviewer, and the cache key of an
  action (`actions.dfy`, with the JSON string encoding in `json_text.dfy`);
- the key/value backend contract, where storing the empty record deletes the
  key, and its in-memory implementation (`records.dfy`, `memory_storage.dfy`);
- the store wrapper, which keys decisions by the action key, validates stored
  identifiers, and keeps sessions (`storage.dfy`);
- the review queue of the terminal front end, meaning its state transitions
  and not its drawing (`cli_ui.dfy`);
- the command router and the ANSI escape-code builders (`cli.dfy`, with
  decimal rendering in `decimal.dfy`).

`wrappers.dfy` defines `Option` and `Result`. They stand in for Go's
`(value, ok)` and `(value, error)` pairs.

Modelling choices:

- **Policies.** A policy is a three-constructor datatype. Its Go struct is
  `PolicyRecord`, and the zero `policy{}` is `ZeroRecord`.
- **Action key.** `Hash` is concrete. It is the text `json.Marshal` produces
  for the action, followed by the 32 bytes of the SHA-256 digest of empty
  input:
  - the JSON has fields in declaration order, and `args` is omitted when
    empty;
  - strings use the escapes of the 2020 encoder: `\"`, `\\`, `\n`, `\r`,
    `\t`, `\u00XX` for other control characters and for `<`, `>` and `&`,
    and `\u2028` and `\u2029` for the line and paragraph separators;
  - the trailer is there because `hash.Sum(bytes)` *appends* the digest of
    nothing to the JSON bytes; it does not hash them (actions/action.go:64-65).

  So the key is not a fixed-length digest, and the model claims no digest
  property. It claims injectivity instead, and proves it by reading the JSON
  back. A nil and an empty `Args` are the same Dafny value. The key is a
  function of the action's value, so two computations of it are equal by
  construction.
- **Bytes.** Go strings are byte strings. `byte_keys.dfy` models the key at
  that level: UTF-8 decoding as `utf8.DecodeRune` does it, and the writer as
  `json.Marshal` runs it, which turns every invalid byte into `\ufffd`. It
  shows that two different actions can then share a key (see Findings). The
  corrected key, `CheckedKey`, is the character-level key for actions whose
  fields are valid UTF-8 and no key otherwise. The rest of the model works
  with character strings, that is, with valid UTF-8 only. There the JSON
  bytes are the UTF-8 encoding of the character-level JSON text, and the key
  bytes are those followed by the digest bytes (`ByteKeys.HashOfValid`); the
  character-level key holds the same digest as one character per byte.
- **Time.** `Time` is a `nat`, and 0 stands for the zero `time.Time`.
  `time.Now()` becomes a parameter `now` with `requires now > 0`. That is why
  a stored record is never empty, and why a session with an empty secret
  still reads back.
- **One backend definition.** The in-memory backend is a single generic
  `Memory<V>` that takes the record type's zero value as a parameter. The
  policy and the session storages are its two instances, so one set of laws
  covers both. `Get` returns a value and never a new map, so it cannot
  modify the storage.
- **Review queue.** The queue is a `seq` of pending requests. Each response
  channel is a number. Sending a decision on a channel appends an entry to a
  delivery log. A run of the queue is a sequence of events: a plugin
  submitting, or the prompt reading one line. FIFO order and exactly-once
  delivery are lemmas about every run.
- **Handlers.** The router's handlers are outside the model.
  `invoke(i, args)` stands for the error that command `i`'s handler returns.

## Model

| member | source | states |
|---|---|---|
| `Policies.All` | policies/policy.go:40-43 | The list has exactly three entries, Allow, AllowAlways and Deny in that order, and each policy occurs exactly once. |
| `Policies.Contains` | policies/policy.go:61-78 | The validity loop reports true exactly when some policy in the list has the wanted field value. |
| `Policies.Find` | policies/policy.go:81-98 | The lookup loop returns the first policy in list order whose field matches. It returns nothing exactly when no policy matches. |
| `Policies.ShortcutValid` | policies/policy.go:60-68 | Holds exactly when one of the three policies has the given shortcut. |
| `Policies.IdValid` | policies/policy.go:70-78 | Holds exactly when one of the three policies has the given id. |
| `Policies.ByShortcut` | policies/policy.go:80-88 | On success, the result has the requested shortcut. It fails exactly when no policy has that shortcut, and then carries the "not found" message. |
| `Policies.ById` | policies/policy.go:90-98 | On success, the result has the requested id. It fails exactly when no policy has that id, and then carries the "not found" message. |
| `Policies.Unique` | policies/policy.go:31-38 | Ids are pairwise distinct, and so are shortcuts. |
| `Policies.LookupRoundTrip` | policies/policy.go:81-98 | For every policy p, `ById(p.Id())` and `ByShortcut(p.Shortcut())` both give back p. |
| `Policies.ValidIffFound` | policies/policy.go:61-98 | `ShortcutValid(s)` holds iff `ByShortcut(s)` succeeds, and `IdValid(s)` holds iff `ById(s)` succeeds. |
| `Policies.UnknownGivesZero` | policies/policy.go:80-98 | An unknown id or shortcut makes the lookup fail, and the value the caller receives is the zero policy. |
| `Policies.AccessorsMatchRecord` | policies/policy.go:124-142 | Each accessor returns the corresponding field of the policy's constant record, and no policy has the zero record. |
| `Actions.CommandString` | actions/action.go:43-48 | The command line equals the name followed by the arguments, joined by single spaces. With no arguments it is exactly the name. |
| `Actions.CommandStringSplits` | actions/action.go:43-48 | If no word contains a space, splitting the command line at spaces gives back the name followed by the arguments. |
| `Actions.SplitJoin` | actions/action.go:47 | Splitting space-free words that were joined with spaces gives back the words. |
| `JsonText.ReadQuoted` | actions/action.go:60 | Reading a JSON string literal back gives the original string and leaves the text that followed untouched. |
| `Actions.JsonRoundTrip` | actions/action.go:36-55 | Decoding an action's JSON text (fields in declaration order, `args` omitted when empty) gives back the action. |
| `Actions.Hash` | actions/action.go:57-66 | The key is the action's JSON text followed by the 32 digest bytes, and reading the JSON part back gives the action. |
| `Actions.HashInjective` | actions/action.go:57-66 | Two actions whose strings are valid UTF-8 share a cache key iff they have the same plugin, command name and argument sequence. |
| `ByteKeys.DecodeRune` | actions/action.go:60 | Reads one rune of a Go byte string as `utf8.DecodeRune` does: it consumes one to four bytes, yields a Unicode scalar value, and yields a rune below 0x80 exactly when the first byte is ASCII. Which sequences are accepted is pinned down by `DecodeRuneOfEncode` and `RuneRoundTrip`. |
| `ByteKeys.DecodeRuneOfEncode` | actions/action.go:60 | The UTF-8 encoding of every character, whatever bytes follow it, decodes to that character and consumes exactly its one to four encoded bytes; in particular no well-formed sequence is rejected. |
| `ByteKeys.DecodeOfEncode` | actions/action.go:60 | The UTF-8 encoding of every string decodes back to that string. With `EncodeOfDecode`, the byte strings that decode are exactly the encodings of strings. |
| `ByteKeys.RuneRoundTrip` | actions/action.go:60 | A validly decoded rune re-encodes as UTF-8 to exactly the bytes it was read from. |
| `ByteKeys.EncodeOfDecode` | actions/action.go:60 | A byte string that decodes without an invalid byte is the UTF-8 encoding of the string it decodes to. |
| `ByteKeys.DecodeInjective` | actions/action.go:60 | Two valid byte strings that decode to the same text are the same bytes. |
| `ByteKeys.BodyOfValid` | actions/action.go:60 | For valid UTF-8, the escaped bytes `json.Marshal` writes are the UTF-8 encoding of the character-level escape. |
| `ByteKeys.QuoteOfValid` | actions/action.go:60 | For valid UTF-8, the quoted bytes are the UTF-8 encoding of the character-level string literal. |
| `ByteKeys.JsonOfValid` | actions/action.go:59-63 | For an action whose strings are all valid UTF-8, the JSON bytes are the UTF-8 encoding of the character-level JSON text. |
| `ByteKeys.HashOfValid` | actions/action.go:59-65 | For an action whose strings are all valid UTF-8, the key bytes are the UTF-8 encoding of the character-level JSON text followed by the 32 digest bytes. |
| `ByteKeys.InvalidBytesAlike` | actions/action.go:60 | Any two single bytes that are not valid UTF-8 are written as the same string literal. |
| `ByteKeys.KeyCollision` | actions/action.go:57-66 | The actions "rm" with argument byte 0xE9 and "rm" with argument byte 0xE8, from the same plugin, are different but get the same key bytes. |
| `ByteKeys.DecodeAll` | actions/action.go:60 | Succeeds exactly when every argument is valid UTF-8, and then gives each argument's text in order. |
| `ByteKeys.ToAction` | actions/action.go:36-55 | A byte-level action denotes a character-level action exactly when its name, every argument and its plugin are valid UTF-8. |
| `ByteKeys.CheckedKeyInjective` | actions/action.go:57-58 | The corrected key never collides: an action that has a key shares it with another action iff the two are the same action. |
| `Records.EmptyOnlyWhenBothZero` | storage/policies.go:38-44 | A record is the empty record only when both fields are zero. An empty id with a real time stamp is not empty. |
| `MemoryStorage.Get` | storage/memory_storage.go:54-59 | The flag is true exactly when the key is present. A present key reads as its stored record; a key that is not present reads as the zero record together with false. |
| `MemoryStorage.Store` | storage/memory_storage.go:45-53 | Storing the empty record makes the key read as absent. Storing any other record makes it read back as (record, true). Every other key reads as before. The no-empty-record invariant is kept. |
| `MemoryStorage.NewPolicyStorage` | storage/memory_storage.go:78-81 | A fresh policy storage holds no key and satisfies the invariant. |
| `MemoryStorage.NewSessionStorage` | storage/memory_storage.go:83-86 | A fresh session storage holds no key and satisfies the invariant. |
| `MemoryStorage.PresentIffNonEmpty` | storage/memory_storage.go:48-59 | Under the invariant, a key reads as present exactly when its record is non-empty. |
| `MemoryStorage.DeleteAbsent` | storage/memory_storage.go:48-51 | Deleting a key that is absent leaves the storage unchanged. |
| `MemoryStorage.StoreOverrides` | storage/memory_storage.go:52 | A later store to a key overrides an earlier one. |
| `Storage.New` | storage/storage.go:34-38 | A store built over fresh backends has no decision for any action and no session for any id. |
| `Storage.PolicyOf` | storage/storage.go:74-81 | It reports absent exactly when nothing is stored under the action's key, the empty record is stored, or the stored id is not one of the three (fails open). Otherwise it returns the policy whose id is the stored one. |
| `Storage.SetPolicy` | storage/storage.go:83-89 | Afterwards the backend holds, under the action's key, the record with p's id and time stamp `now`, or no record at all when p = None. `PolicyOf(a)` then reads back p, so a later call overrides an earlier one. The session backend is untouched. |
| `Storage.SetPolicyFrame` | storage/storage.go:83-89 | For actions whose strings are valid UTF-8, setting or deleting the decision for one action leaves the decision of every other action unchanged. |
| `Storage.GetSession` | storage/storage.go:91-97 | A returned session carries the requested id and the secret stored under it. A session is returned exactly when a non-empty record is stored under that id. |
| `Storage.SetSession` | storage/storage.go:99-104 | A nil session is a precondition violation. Otherwise the backend holds the record with the session's secret and creation time `now` under its id, and the session reads back with the same id and secret, even when the secret is "". Other ids are unaffected. |
| `Storage.DeleteSession` | storage/storage.go:106-108 | Afterwards the backend holds no record under the id, so no session reads back, and other ids keep theirs. |
| `CliUi.NewCli` | ui/cli_ui.go:87-90 | A new front end has an empty queue, no prompt cycle and no decisions sent. |
| `CliUi.HandleQueue` | ui/cli_ui.go:152-166 | Changes neither the queue nor the decisions sent. With exactly one queued request it starts the prompt cycle, which makes the state valid. Otherwise, and in any valid state, it changes nothing. |
| `CliUi.Handle` | ui/cli_ui.go:146-166 | The request joins the tail of the queue and earlier entries keep their order. A prompt cycle starts exactly when the queue was empty, and the invariant is kept. |
| `CliUi.Answer` | ui/cli_ui.go:186-205 | A line that is not a shortcut changes nothing. A shortcut sends `ByShortcut(input)` to the head's channel and pops exactly the head. The next cycle runs exactly when requests remain. |
| `CliUi.GetShortcutInput` | ui/cli_ui.go:215-225 | Returns the first line that is a valid shortcut. Every earlier line was rejected. |
| `CliUi.HandlePrompt` | ui/cli_ui.go:186-205 | Consumes lines up to and including the first shortcut and answers the head with it. Every rejected line would have left the state unchanged. |
| `CliUi.StepInvariant` | ui/cli_ui.go:147-205 | Each submission or read line keeps the invariant. The channels already answered, followed by those still queued, grow only by the submitted channel. |
| `CliUi.RunInvariant` | ui/cli_ui.go:147-205 | In every run, a prompt cycle is active iff the queue is non-empty. The answered channels followed by the queued channels are exactly the submitted channels, in submission order. |
| `CliUi.DeliveredInOrder` | ui/cli_ui.go:148-200 | The channels that received decisions form a prefix of the submission order (FIFO, at most once each). |
| `CliUi.ExactlyOnceWhenDrained` | ui/cli_ui.go:148-200 | Once the queue is empty, every submitted request has received exactly one decision, in arrival order. |
| `CliUi.HeadIsOldestUnanswered` | ui/cli_ui.go:183-204 | The request under review is always the earliest submitted request not yet answered. |
| `CliUi.AnswerWith` | ui/cli_ui.go:187-205 | Typing a decision's own shortcut sends exactly that decision to the head's channel and pops the head. The next cycle runs exactly when another request was waiting. |
| `CliUi.StrayLine` | ui/cli_ui.go:216-224 | A line that is no decision's shortcut, such as "x", leaves the queue, the prompt and the decisions sent unchanged. |
| `CliUi.TwoRequestScenario` | ui/cli_ui.go:147-205 | Two submissions queue both requests in arrival order and start one cycle. Typing Deny's shortcut sends Deny to the first channel and leaves the second request under review. Typing Allow's shortcut then sends Allow to the second channel and ends the cycle with an empty queue. |
| `CliUi.AnswerShape` | ui/cli_ui.go:187-205 | For a queue made of a head and the rest, typing a decision's shortcut leaves exactly the rest queued and appends that decision, addressed to the head's channel, to the decisions sent. |
| `CliUi.DecisionString` | ui/cli_ui.go:227-241 | The label is "Name (shortcut)" wrapped in the colour code of the policy value and the reset code. |
| `CliUi.DecisionLabels` | ui/cli_ui.go:227-241 | Deny is rendered in red, Allow and Always allow in green, and the zero policy value in white. |
| `Cli.Format` | cli/cli.go:82-90 | Formatting through `FmtString` gives the colour code, then the text verbatim, then `ESC[0m`. |
| `Cli.SprintfLabel` | ui/cli_ui.go:240 | The two-slot format "%s (%s)" yields name, " (", shortcut, ")". |
| `Cli.CursorTo` | cli/cli.go:92-95 | The model's reader recovers exactly the row and column from the code. |
| `Cli.CursorUp` | cli/cli.go:97-100 | The model's reader recovers exactly an upward move by the given count. |
| `Cli.CursorDown` | cli/cli.go:102-105 | The model's reader recovers exactly a downward move by the given count. |
| `Cli.ParseRender` | cli/cli.go:92-105 | `CursorTo`, `CursorUp` and `CursorDown` produce `ESC[r;cH`, `ESC[nA` and `ESC[nB`. The model's reader of these codes recovers exactly the movement and the decimal numbers they were built from, negative numbers included; a real terminal accepts no sign, but the program only passes positive counts (ui/cli_ui.go:101, 114, 118, 128). |
| `Decimal.IntToString` | cli/cli.go:94 | The `%d` rendering is non-empty, consists of digits with at most a leading minus sign, and reads back as the integer. |
| `Cli.FindCommand` | cli/cli.go:186-193 | Returns the index of the first command with the given name. Returns nothing exactly when no command has it. |
| `Cli.ExecuteIfCommand` | cli/cli.go:186-193 | Reports no command exactly when no name matches. Otherwise it executes the first command with a matching name. |
| `Cli.ExecuteCommand` | cli/cli.go:195-201 | A command without a handler runs nothing and yields exactly the error "<name> does not have a handler.". Otherwise the handler runs with the given arguments and its own error is returned unchanged. |
| `Cli.Run` | cli/cli.go:160-184 | No arguments, "-h" or "--help" show help with no error, even when a command has that name. Otherwise, for the first command whose name equals the first argument: with a handler, that handler runs with the remaining arguments and its error is the result; without one, nothing runs and the error is "<name> does not have a handler.". An unknown name shows help with no error. |
| `Cli.RouteByName` | cli/cli.go:172-183 | Apart from the help flags, help is shown exactly when no command has the given name. |
| `Cli.RoutingScenario` | cli/cli_test.go:41-78 | With the commands "mycommand" and "mycommand2", the unknown name "hi" runs nothing and shows help without error. "mycommand" runs the first command with no arguments. "mycommand2 Hello 'Second argument'" runs the second command with those two arguments, in order. |

## Left out

- Base64 encoding of the key: the key is modelled as the JSON text followed by the digest bytes. Base64 is injective, so leaving it out loses no collision. The key is not stable across Go versions, and the model says nothing about other encoder versions.
- Actions.HashInjective: holds only for actions whose name, arguments and plugin are valid UTF-8, because its inputs are Dafny character strings. For arbitrary Go byte strings the source's key is not injective: `json.Marshal` writes every invalid byte as `\ufffd`. `ByteKeys.KeyCollision` shows this, and `ByteKeys.CheckedKeyInjective` states the corrected key.
- Storage.SetPolicyFrame: holds only for actions whose strings are valid UTF-8. For Go byte strings it fails: "rm" with the argument byte 0xE9 and "rm" with 0xE8 share a key (`ByteKeys.KeyCollision`), so `SetPolicy` on one changes the decision `Policy` reports for the other (storage/storage.go:75, 85, 88).
- Storage.SetPolicy: modelled for nil and the three decisions only. Go also accepts the zero `policy{}` that failed lookups return; the source would then store the non-empty record with an empty id, which `Policy` reads back as absent because the id is not valid (storage/storage.go:76, 88). `Option<Policy>` cannot express that argument.
- ByteKeys.DigestBytes: the 32 trailer bytes are written out; SHA-256 itself is not modelled, since the source only ever takes the digest of empty input.
- Goroutines, `sync.Mutex` and channels: the model is sequential, and `CliUi.RunInvariant` and the other run lemmas speak about sequential runs only. No thread-safety claim is made. The source has more than a data race here. `Handle` appends to the queue without the lock (ui/cli_ui.go:148), and `handleQueue` checks the queue length later and separately (ui/cli_ui.go:161-165). So if request B is appended while request A is being answered, both B's `handleQueue` and the pop of A (ui/cli_ui.go:200-203) can start a prompt goroutine for B. Two prompts then read input for the same head, and a leftover prompt can index `c.queue[0]` of an empty queue (ui/cli_ui.go:195). None of these interleavings is modelled.
- Terminal drawing: `writeHeader`, `writeQueue`, `writePrompt`, `render`, `updateDisplayedQueue`, `updateDisplayedPrompt`, `Setup` and `Title`. These are output only. One rendering slip is also out of scope: `string(len(c.queue))` at ui/cli_ui.go:129 turns the queue length into a character, not a number.
- Temporary command files: `FileURI`, `generateFile`, `os.Remove`, and the `log.Fatal` exits on file errors. These are file-system I/O.
- `App.GetInput`, `NewApp` and the text of `App.Help`: these are stdin/stdout and `os.Args`. The model represents help only as the `ShowHelp` outcome.
- CliUi.GetShortcutInput: its input lines are the single tokens `fmt.Fscanln` accepts (cli/cli.go:204-210). In the source, an empty line, a line with more than one word, or the end of input makes `Fscanln` fail, and `GetInput` then exits the program through `log.Fatal`. The model does not exit: when the lines run out it reports `found == false`, and it has no way to express an empty or multi-word line.
- `time.Now()`: the model takes it as a parameter that is required to be non-zero.
- `CliUi.Step`: a line read while nothing is queued changes nothing. The source reads input only while a prompt cycle runs, so text typed at other times stays buffered. The model does not carry such text over to a later prompt.
- `Cli.Sprintf`: models only the `%s` verb, the `%%` escape and the missing-argument marker. Go's reports for extra arguments and its other verbs are not modelled. The source passes only strings through `%s` in the places modelled.
- Go's `int` is 64 bits wide. `CursorTo`, `CursorUp` and `CursorDown` are modelled over unbounded integers, because the program only passes small row counts.
- Looking the cache up before enqueueing, and writing Always-allow decisions through to the store: no file in this model contains that glue, so it is not modelled as behaviour of the source.
- Sessions come from sessions/session.go, which is a record with two getters and is not part of this model. They are represented by the `Storage.Session` datatype.

## Findings

| source | as written | input that shows it | evidently intended | confidence | as-written member | corrected member |
|---|---|---|---|---|---|---|
| actions/action.go:57-66 | `Hash` marshals the action with `json.Marshal`, which writes each byte that is not valid UTF-8 as `\ufffd`; distinct byte strings can therefore produce the same JSON and the same key | the command "rm" with the one-byte argument 0xE9 (Latin-1 "é") and the same command with 0xE8 ("è"), from one plugin | "There should however never be collisions" (line 58): distinct actions get distinct keys | high, by reading Go's encoder; not executed | `ByteKeys.KeyCollision` | `ByteKeys.CheckedKeyInjective` |

=== FILE: actions.dfy ===
/** Actions a plugin asks to run (actions/action.go): the command text shown to
    the reviewer and the key under which a decision about the action is cached. */
module Actions {
  import opened Wrappers
  import JsonText
  import Seqs

  /** The command to execute. A nil and an empty argument list are the same value here. */
  datatype Command = Command(name: string, args: seq<string>)

  /** The intent of a plugin to execute a command. */
  datatype Action = Action(command: Command, plugin: string)

  /** `strings.Join`: the elements separated by `sep`. */
  function Join(xs: seq<string>, sep: string): string {
    if |xs| == 0 then ""
    else if |xs| == 1 then xs[0]
    else xs[0] + sep + Join(xs[1..], sep)
  }

  /** The command line as shown to the reviewer: the name alone when there are
      no arguments, otherwise the name and the arguments separated by spaces. */
  function CommandString(c: Command): (r: string)
    ensures r == Join([c.name] + c.args, " ")
  {
    if |c.args| == 0 then c.name
    else
      assert ([c.name] + c.args)[1..] == c.args;
      c.name + " " + Join(c.args, " ")
  }

  /** Splits a string at every space: the inverse of joining words with spaces. */
  function Split(s: string): (r: seq<string>)
    ensures |r| > 0
  {
    if |s| == 0 then [""]
    else
      var tail := Split(s[1..]);
      if s[0] == ' ' then [""] + tail
      else [[s[0]] + tail[0]] + tail[1..]
  }

  /** No element of `xs` contains a space. */
  predicate SpaceFree(xs: seq<string>) {
    forall i :: 0 <= i < |xs| ==> ' ' !in xs[i]
  }

  lemma {:induction false} SplitWord(w: string, rest: string)
    requires ' ' !in w
    ensures Split(w) == [w]
    ensures Split(w + " " + rest) == [w] + Split(rest)
    decreases |w|
  {
    if |w| == 0 {
      assert w + " " + rest == [' '] + rest;
      assert ([' '] + rest)[1..] == rest;
    } else {
      SplitWord(w[1..], rest);
      assert (w + " " + rest)[1..] == w[1..] + " " + rest;
      assert [w[0]] + w[1..] == w;
    }
  }

  /** Splitting joined space-free words gives the words back. */
  lemma {:induction false} SplitJoin(xs: seq<string>)
    requires |xs| > 0 && SpaceFree(xs)
    ensures Split(Join(xs, " ")) == xs
    decreases |xs|
  {
    SplitWord(xs[0], "");
    if |xs| > 1 {
      assert SpaceFree(xs[1..]) by {
        forall i | 0 <= i < |xs| - 1 ensures ' ' !in xs[1..][i] { assert xs[1..][i] == xs[i + 1]; }
      }
      SplitJoin(xs[1..]);
      SplitWord(xs[0], Join(xs[1..], " "));
      assert [xs[0]] + xs[1..] == xs;
    }
  }

  /** When no word contains a space, the command line determines the command:
      splitting it at spaces gives back the name followed by the arguments. */
  lemma CommandStringSplits(c: Command)
    requires ' ' !in c.name && SpaceFree(c.args)
    ensures Split(CommandString(c)) == [c.name] + c.args
  {
    var xs := [c.name] + c.args;
    assert SpaceFree(xs) by {
      forall i | 0 <= i < |xs| ensures ' ' !in xs[i] {
        if i > 0 { assert xs[i] == c.args[i - 1]; }
      }
    }
    SplitJoin(xs);
  }

  // ---------------------------------------------------------------------------
  // The cache key

  /** `"args":` followed by the JSON array of the (non-empty) arguments. */
  function ArgsElements(args: seq<string>): seq<char>
    requires |args| > 0
  {
    if |args| == 1 then JsonText.Quote(args[0])
    else JsonText.Quote(args[0]) + ([','] + ArgsElements(args[1..]))
  }

  const CommandOpen: seq<char> := "{\"command\":{\"name\":"
  const ArgsOpen: seq<char> := ",\"args\":["
  const PluginOpen: seq<char> := "},\"plugin\":"

  /** The JSON text `json.Marshal` gives for an action: fields in declaration
      order, and `args` omitted when empty. */
  function Json(a: Action): seq<char> {
    CommandOpen + (JsonText.Quote(a.command.name)
      + (ArgsText(a.command.args) + (PluginOpen + JsonText.Quote(a.plugin) + "}")))
  }

  /** The 32 bytes of the SHA-256 digest of empty input, one character per
      byte; `hash.Sum(bytes)` appends these to the JSON text. */
  const EmptyDigest: seq<char> :=
    "\U{e3}\U{b0}\U{c4}\U{42}\U{98}\U{fc}\U{1c}\U{14}\U{9a}\U{fb}\U{f4}\U{c8}\U{99}\U{6f}\U{b9}\U{24}"
    + "\U{27}\U{ae}\U{41}\U{e4}\U{64}\U{9b}\U{93}\U{4c}\U{a4}\U{95}\U{99}\U{1b}\U{78}\U{52}\U{b8}\U{55}"

  /** The cache key of an action: its JSON text followed by the digest trailer. */
  function Hash(a: Action): (r: seq<char>)
    ensures |r| == |Json(a)| + 32 && r[|r| - 32..] == EmptyDigest
    ensures DecodeJson(r[..|r| - 32]) == Some(a)
  {
    JsonRoundTrip(a);
    var r := Json(a) + EmptyDigest;
    assert r[..|Json(a)|] == Json(a);
    r
  }

  /** Reads the elements of a JSON array of strings up to the closing bracket. */
  function ReadElements(t: seq<char>): (r: Option<(seq<string>, seq<char>)>)
    ensures r.Some? ==> |r.value.0| > 0 && |r.value.1| < |t|
    decreases |t|
  {
    match JsonText.ReadString(t)
    case None => None
    case Some((s, rest)) =>
      if |rest| > 0 && rest[0] == ']' then Some(([s], rest[1..]))
      else if |rest| > 0 && rest[0] == ',' then
        match ReadElements(rest[1..])
        case None => None
        case Some((more, rest')) => Some(([s] + more, rest'))
      else None
  }

  /** Reads the optional `"args"` member that follows the command name: absent
      when the next character is not a comma. */
  function ReadArgs(t: seq<char>): Option<(seq<string>, seq<char>)> {
    if |t| > 0 && t[0] == ',' then
      match JsonText.Expect(ArgsOpen, t)
      case None => None
      case Some(t1) => ReadElements(t1)
    else Some(([], t))
  }

  /** Reads the text after the command object: the plugin member and the
      closing brace. */
  function ReadPlugin(t: seq<char>): Option<(string, seq<char>)> {
    match JsonText.Expect(PluginOpen, t)
    case None => None
    case Some(t1) =>
      match JsonText.ReadString(t1)
      case None => None
      case Some((plugin, t2)) =>
        match JsonText.Expect("}", t2)
        case None => None
        case Some(t3) => Some((plugin, t3))
  }

  /** Reads the JSON text of an action at the start of `t`. */
  function ReadAction(t: seq<char>): Option<(Action, seq<char>)> {
    match JsonText.Expect(CommandOpen, t)
    case None => None
    case Some(t1) =>
      match JsonText.ReadString(t1)
      case None => None
      case Some((name, t2)) =>
        match ReadArgs(t2)
        case None => None
        case Some((args, t3)) =>
          match ReadPlugin(t3)
          case None => None
          case Some((plugin, t4)) => Some((Action(Command(name, args), plugin), t4))
  }

  /** Decodes a complete JSON text of an action. */
  function DecodeJson(t: seq<char>): Option<Action> {
    match ReadAction(t)
    case Some((a, rest)) => if rest == [] then Some(a) else None
    case None => None
  }

  lemma ReadElementsLast(t: seq<char>, s: string, rest: seq<char>)
    requires JsonText.ReadString(t) == Some((s, "]" + rest))
    ensures ReadElements(t) == Some(([s], rest))
  {
    assert ("]" + rest)[1..] == rest;
  }

  lemma ReadElementsMore(t: seq<char>, s: string, tail: seq<char>, more: seq<string>, rest: seq<char>)
    requires JsonText.ReadString(t) == Some((s, [','] + tail))
    requires ReadElements(tail) == Some((more, rest))
    ensures ReadElements(t) == Some(([s] + more, rest))
  {
    assert ([','] + tail)[1..] == tail;
  }

  /** The array text split after its first element. */
  lemma ElementsText(args: seq<string>, rest: seq<char>)
    requires |args| > 0
    ensures |args| == 1 ==> ArgsElements(args) + "]" + rest == JsonText.Quote(args[0]) + ("]" + rest)
    ensures |args| > 1 ==>
              ArgsElements(args) + "]" + rest
              == JsonText.Quote(args[0]) + ([','] + (ArgsElements(args[1..]) + "]" + rest))
  {
    var q := JsonText.Quote(args[0]);
    if |args| == 1 {
      Seqs.Assoc(q, "]", rest);
    } else {
      var more := ArgsElements(args[1..]);
      var x := [','] + more;
      Seqs.Assoc(q, x, "]");
      Seqs.Assoc(q, x + "]", rest);
      Seqs.Assoc([','], more, "]");
      Seqs.Assoc([','], more + "]", rest);
    }
  }

  lemma {:induction false} ReadArgsElements(args: seq<string>, rest: seq<char>)
    requires |args| > 0
    ensures ReadElements(ArgsElements(args) + "]" + rest) == Some((args, rest))
    decreases |args|
  {
    var q := JsonText.Quote(args[0]);
    ElementsText(args, rest);
    if |args| == 1 {
      JsonText.ReadQuoted(args[0], "]" + rest);
      ReadElementsLast(q + ("]" + rest), args[0], rest);
      assert [args[0]] == args;
    } else {
      var tail := ArgsElements(args[1..]) + "]" + rest;
      JsonText.ReadQuoted(args[0], [','] + tail);
      ReadArgsElements(args[1..], rest);
      ReadElementsMore(q + ([','] + tail), args[0], tail, args[1..], rest);
      assert [args[0]] + args[1..] == args;
    }
  }

  /** The text written for the arguments: nothing when there are none. */
  function ArgsText(args: seq<string>): seq<char> {
    if |args| == 0 then [] else ArgsOpen + ArgsElements(args) + "]"
  }

  lemma ReadArgsText(args: seq<string>, tail: seq<char>)
    requires |tail| > 0 && tail[0] != ','
    ensures ReadArgs(ArgsText(args) + tail) == Some((args, tail))
  {
    if |args| > 0 {
      Seqs.Assoc(ArgsOpen, ArgsElements(args), "]");
      Seqs.Assoc(ArgsOpen, ArgsElements(args) + "]", tail);
      JsonText.ExpectPrefix(ArgsOpen, ArgsElements(args) + "]" + tail);
      ReadArgsElements(args, tail);
    } else {
      assert ArgsText(args) + tail == tail;
    }
  }

  lemma ReadPluginText(plugin: string)
    ensures ReadPlugin(PluginOpen + JsonText.Quote(plugin) + "}") == Some((plugin, []))
  {
    assert PluginOpen + JsonText.Quote(plugin) + "}" == PluginOpen + (JsonText.Quote(plugin) + "}");
    JsonText.ExpectPrefix(PluginOpen, JsonText.Quote(plugin) + "}");
    JsonText.ReadQuoted(plugin, "}");
    JsonText.ExpectPrefix("}", []);
    assert "}" + [] == "}";
  }

  /** One step of reading an action: the pieces read in turn make up the action. */
  lemma ReadActionSteps(t: seq<char>, t1: seq<char>, name: string, t2: seq<char>,
                        args: seq<string>, t3: seq<char>, plugin: string, t4: seq<char>)
    requires JsonText.Expect(CommandOpen, t) == Some(t1)
    requires JsonText.ReadString(t1) == Some((name, t2))
    requires ReadArgs(t2) == Some((args, t3))
    requires ReadPlugin(t3) == Some((plugin, t4))
    ensures ReadAction(t) == Some((Action(Command(name, args), plugin), t4))
  {
  }

  /** Reading back the JSON text of an action gives the action. */
  lemma JsonRoundTrip(a: Action)
    ensures DecodeJson(Json(a)) == Some(a)
  {
    var name, args, plugin := a.command.name, a.command.args, a.plugin;
    var tailText := PluginOpen + JsonText.Quote(plugin) + "}";
    var rest := ArgsText(args) + tailText;
    var t1 := JsonText.Quote(name) + rest;
    JsonText.ExpectPrefix(CommandOpen, t1);
    JsonText.ReadQuoted(name, rest);
    ReadArgsText(args, tailText);
    ReadPluginText(plugin);
    ReadActionSteps(Json(a), t1, name, rest, args, tailText, plugin, []);
  }

  /** Two actions share a cache key exactly when they have the same plugin,
      command name and argument list. */
  lemma HashInjective(a: Action, b: Action)
    ensures Hash(a) == Hash(b) <==> a == b
  {
    if Hash(a) == Hash(b) {
      assert |Json(a)| == |Json(b)|;
      assert Json(a) == Hash(a)[..|Json(a)|];
      assert Json(b) == Hash(b)[..|Json(b)|];
      JsonRoundTrip(a);
      JsonRoundTrip(b);
    }
  }
}

=== FILE: byte_keys.dfy ===
/** Action keys at the level of bytes. Go strings are byte strings, and
    `json.Marshal` (actions/action.go:60) reads them as UTF-8: every byte that
    does not start a valid UTF-8 sequence is written as the escape `\ufffd`.
    This module models that writer, shows the key collision it causes, and
    defines the key the rest of the model uses: the character-level key of
    actions whose fields are valid UTF-8, with no key for the others. */
module ByteKeys {
  import opened Wrappers
  import JsonText
  import Actions
  import Seqs

  /** One byte of a Go string. */
  newtype Byte = b: int | 0 <= b < 256

  /** A command whose name and arguments are Go byte strings. */
  datatype ByteCommand = ByteCommand(name: seq<Byte>, args: seq<seq<Byte>>)

  /** An action whose strings are Go byte strings. */
  datatype ByteAction = ByteAction(command: ByteCommand, plugin: seq<Byte>)

  // ---------------------------------------------------------------------------
  // UTF-8

  /** The UTF-8 encoding of one character. */
  function EncodeRune(c: char): (r: seq<Byte>)
    ensures 1 <= |r| <= 4
  {
    var v := c as int;
    if v < 0x80 then [v as Byte]
    else if v < 0x800 then [(0xC0 + v / 64) as Byte, (0x80 + v % 64) as Byte]
    else if v < 0x1_0000 then
      [(0xE0 + v / 64 / 64) as Byte, (0x80 + v / 64 % 64) as Byte, (0x80 + v % 64) as Byte]
    else
      [(0xF0 + v / 64 / 64 / 64) as Byte, (0x80 + v / 64 / 64 % 64) as Byte,
       (0x80 + v / 64 % 64) as Byte, (0x80 + v % 64) as Byte]
  }

  /** The UTF-8 encoding of a string. */
  function Encode(s: string): seq<Byte> {
    if |s| == 0 then [] else EncodeRune(s[0]) + Encode(s[1..])
  }

  /** Whether `b` lies in `lo..hi`; the second byte of a multi-byte sequence
      must lie in the range its first byte allows. */
  predicate InRange(b: Byte, lo: int, hi: int) {
    lo <= b as int <= hi
  }

  /** `utf8.DecodeRune`: the rune at the start of `s` and the number of bytes it
      takes. A byte that does not start a valid sequence (a stray continuation
      byte, an overlong form, a surrogate, a value past U+10FFFF, or a sequence
      cut short) decodes as U+FFFD with width 1. */
  function DecodeRune(s: seq<Byte>): (r: (int, nat))
    requires |s| > 0
    ensures 1 <= r.1 <= |s| && r.1 <= 4
    ensures JsonText.IsScalar(r.0)
    ensures r.1 == 1 && r.0 != 0xFFFD ==> r.0 == s[0] as int < 0x80
    ensures s[0] as int < 0x80 <==> r.0 < 0x80
  {
    var b0 := s[0] as int;
    if b0 < 0x80 then (b0, 1)
    else if 0xC2 <= b0 <= 0xDF && |s| >= 2 && InRange(s[1], 0x80, 0xBF) then
      ((b0 - 0xC0) * 64 + (s[1] as int - 0x80), 2)
    else if 0xE0 <= b0 <= 0xEF && |s| >= 3
            && InRange(s[1], if b0 == 0xE0 then 0xA0 else 0x80, if b0 == 0xED then 0x9F else 0xBF)
            && InRange(s[2], 0x80, 0xBF) then
      (((b0 - 0xE0) * 64 + (s[1] as int - 0x80)) * 64 + (s[2] as int - 0x80), 3)
    else if 0xF0 <= b0 <= 0xF4 && |s| >= 4
            && InRange(s[1], if b0 == 0xF0 then 0x90 else 0x80, if b0 == 0xF4 then 0x8F else 0xBF)
            && InRange(s[2], 0x80, 0xBF) && InRange(s[3], 0x80, 0xBF) then
      ((((b0 - 0xF0) * 64 + (s[1] as int - 0x80)) * 64 + (s[2] as int - 0x80)) * 64 + (s[3] as int - 0x80), 4)
    else (0xFFFD, 1)
  }

  /** Whether `DecodeRune` reports the invalid-byte marker (U+FFFD, width 1). */
  predicate Invalid(s: seq<Byte>)
    requires |s| > 0
  {
    DecodeRune(s) == (0xFFFD, 1)
  }

  /** The string that valid UTF-8 bytes spell, or None when some byte is invalid. */
  function Decode(s: seq<Byte>): Option<string>
    decreases |s|
  {
    if |s| == 0 then Some([])
    else if Invalid(s) then None
    else
      var (r, n) := DecodeRune(s);
      match Decode(s[n..])
      case None => None
      case Some(rest) => Some([r as char] + rest)
  }

  lemma DivMod64(q: int, r: int)
    requires 0 <= r < 64
    ensures (q * 64 + r) / 64 == q && (q * 64 + r) % 64 == r
  {
  }

  lemma Rune2(b0: int, b1: int)
    requires 0xC2 <= b0 <= 0xDF && 0x80 <= b1 <= 0xBF
    ensures EncodeRune(((b0 - 0xC0) * 64 + (b1 - 0x80)) as char) == [b0 as Byte, b1 as Byte]
  {
    DivMod64(b0 - 0xC0, b1 - 0x80);
  }

  lemma Rune3(b0: int, b1: int, b2: int, v: int)
    requires 0xE0 <= b0 <= 0xEF && 0x80 <= b1 <= 0xBF && 0x80 <= b2 <= 0xBF
    requires v == ((b0 - 0xE0) * 64 + (b1 - 0x80)) * 64 + (b2 - 0x80)
    requires 0x800 <= v < 0x1_0000 && JsonText.IsScalar(v)
    ensures EncodeRune(v as char) == [b0 as Byte, b1 as Byte, b2 as Byte]
  {
    DivMod64((b0 - 0xE0) * 64 + (b1 - 0x80), b2 - 0x80);
    DivMod64(b0 - 0xE0, b1 - 0x80);
  }

  lemma Rune4(b0: int, b1: int, b2: int, b3: int, v: int)
    requires 0xF0 <= b0 <= 0xF4 && 0x80 <= b1 <= 0xBF && 0x80 <= b2 <= 0xBF && 0x80 <= b3 <= 0xBF
    requires v == (((b0 - 0xF0) * 64 + (b1 - 0x80)) * 64 + (b2 - 0x80)) * 64 + (b3 - 0x80)
    requires 0x1_0000 <= v && JsonText.IsScalar(v)
    ensures EncodeRune(v as char) == [b0 as Byte, b1 as Byte, b2 as Byte, b3 as Byte]
  {
    var x := (b0 - 0xF0) * 64 + (b1 - 0x80);
    var y := x * 64 + (b2 - 0x80);
    DivMod64(y, b3 - 0x80);
    DivMod64(x, b2 - 0x80);
    DivMod64(b0 - 0xF0, b1 - 0x80);
  }

  /** A valid rune is encoded as exactly the bytes it was decoded from. */
  lemma RuneRoundTrip(s: seq<Byte>)
    requires |s| > 0 && !Invalid(s)
    ensures EncodeRune(DecodeRune(s).0 as char) == s[..DecodeRune(s).1]
  {
    var (v, n) := DecodeRune(s);
    if n == 2 {
      Rune2(s[0] as int, s[1] as int);
    } else if n == 3 {
      Rune3(s[0] as int, s[1] as int, s[2] as int, v);
    } else if n == 4 {
      Rune4(s[0] as int, s[1] as int, s[2] as int, s[3] as int, v);
    }
  }

  /** One step of `Decode` on valid input: the first rune, the bytes that
      encode it, and the rest. */
  lemma ValidStep(s: seq<Byte>) returns (c: char, n: nat)
    requires |s| > 0 && Decode(s).Some?
    ensures 1 <= n <= |s| && n == DecodeRune(s).1 && c as int == DecodeRune(s).0
    ensures EncodeRune(c) == s[..n] && Decode(s[n..]).Some?
    ensures Decode(s).value == [c] + Decode(s[n..]).value
  {
    c, n := DecodeRune(s).0 as char, DecodeRune(s).1;
    RuneRoundTrip(s);
  }

  lemma {:induction false} EncodeOfDecode(s: seq<Byte>)
    requires Decode(s).Some?
    ensures Encode(Decode(s).value) == s
    decreases |s|
  {
    if |s| > 0 {
      var c, n := ValidStep(s);
      EncodeOfDecode(s[n..]);
      EncodeSplit(s, n, c, Decode(s[n..]).value);
    }
  }

  lemma EncodeSplit(s: seq<Byte>, n: nat, c: char, rest: string)
    requires n <= |s| && EncodeRune(c) == s[..n] && Encode(rest) == s[n..]
    ensures Encode([c] + rest) == s
  {
    EncodeCons(c, rest, s[..n], s[n..]);
    assert s[..n] + s[n..] == s;
  }

  lemma EncodeCons(c: char, rest: string, head: seq<Byte>, tail: seq<Byte>)
    requires EncodeRune(c) == head && Encode(rest) == tail
    ensures Encode([c] + rest) == head + tail
  {
    assert ([c] + rest)[1..] == rest;
  }

  /** Decoding the UTF-8 encoding of a character, whatever follows it, reads
      back that character and exactly its encoded bytes. */
  lemma DecodeRuneOfEncode(c: char, rest: seq<Byte>)
    ensures DecodeRune(EncodeRune(c) + rest) == (c as int, |EncodeRune(c)|)
  {
    var v := c as int;
    if v < 0x80 {
    } else if v < 0x800 {
      DecodeTwo(c, rest);
    } else if v < 0x1_0000 {
      DecodeThree(c, rest);
    } else {
      DecodeFour(c, rest);
    }
  }

  lemma DecodeTwo(c: char, rest: seq<Byte>)
    requires 0x80 <= c as int < 0x800
    ensures DecodeRune(EncodeRune(c) + rest) == (c as int, 2)
  {
    var v := c as int;
    var hi, lo := v / 64, v % 64;
    var s := EncodeRune(c) + rest;
    assert s[0] as int == 0xC0 + hi && s[1] as int == 0x80 + lo;
    assert 2 <= hi <= 0x1F && hi * 64 + lo == v;
  }

  lemma DecodeThree(c: char, rest: seq<Byte>)
    requires 0x800 <= c as int < 0x1_0000
    ensures DecodeRune(EncodeRune(c) + rest) == (c as int, 3)
  {
    var v := c as int;
    var q, lo := v / 64, v % 64;
    var hi, mid := q / 64, q % 64;
    var s := EncodeRune(c) + rest;
    assert s[0] as int == 0xE0 + hi && s[1] as int == 0x80 + mid && s[2] as int == 0x80 + lo;
    assert 0 <= hi <= 15 && (hi * 64 + mid) * 64 + lo == v;
    assert hi == 0 ==> mid >= 32;
    assert hi == 0xD ==> v < 0xD800 && mid < 32;
  }

  lemma DecodeFour(c: char, rest: seq<Byte>)
    requires 0x1_0000 <= c as int
    ensures DecodeRune(EncodeRune(c) + rest) == (c as int, 4)
  {
    var v := c as int;
    var q1, lo := v / 64, v % 64;
    var q2, mid := q1 / 64, q1 % 64;
    var hi, top := q2 / 64, q2 % 64;
    var s := EncodeRune(c) + rest;
    assert s[0] as int == 0xF0 + hi && s[1] as int == 0x80 + top;
    assert s[2] as int == 0x80 + mid && s[3] as int == 0x80 + lo;
    assert 0 <= hi <= 4 && ((hi * 64 + top) * 64 + mid) * 64 + lo == v;
    assert hi == 0 ==> top >= 16;
    assert hi == 4 ==> top < 16;
  }

  /** Every string's UTF-8 encoding decodes, and back to that string: together
      with `EncodeOfDecode`, the byte strings `Decode` accepts are exactly the
      UTF-8 encodings of strings. */
  lemma {:induction false} DecodeOfEncode(s: string)
    ensures Decode(Encode(s)) == Some(s)
    decreases |s|
  {
    if |s| > 0 {
      var head, tail := EncodeRune(s[0]), Encode(s[1..]);
      DecodeRuneOfEncode(s[0], tail);
      DecodeOfEncode(s[1..]);
      assert (head + tail)[|head|..] == tail;
      assert [s[0]] + s[1..] == s;
    }
  }

  /** Two valid byte strings that spell the same text are the same bytes. */
  lemma DecodeInjective(s: seq<Byte>, t: seq<Byte>)
    requires Decode(s).Some? && Decode(s) == Decode(t)
    ensures s == t
  {
    EncodeOfDecode(s);
    EncodeOfDecode(t);
  }

  lemma {:induction false} EncodeAppend(a: string, b: string)
    ensures Encode(a + b) == Encode(a) + Encode(b)
    decreases |a|
  {
    if |a| > 0 {
      assert (a + b)[1..] == a[1..] + b;
      EncodeAppend(a[1..], b);
      Seqs.Assoc(EncodeRune(a[0]), Encode(a[1..]), Encode(b));
    } else {
      assert a + b == b;
    }
  }

  // ---------------------------------------------------------------------------
  // The writer as written

  /** The escaped body of a byte string as `json.Marshal` writes it: an ASCII
      byte gets the character escape, an invalid byte becomes `\ufffd`, U+2028
      and U+2029 get their `\u` escapes, and every other valid rune is copied
      byte for byte. */
  function BodyBytes(s: seq<Byte>): seq<Byte>
    decreases |s|
  {
    if |s| == 0 then []
    else if s[0] < 0x80 then Encode(JsonText.EscapeChar(s[0] as int as char)) + BodyBytes(s[1..])
    else if Invalid(s) then Encode("\\ufffd") + BodyBytes(s[1..])
    else
      var (r, n) := DecodeRune(s);
      if r == 0x2028 || r == 0x2029 then Encode(JsonText.EscapeChar(r as char)) + BodyBytes(s[n..])
      else s[..n] + BodyBytes(s[n..])
  }

  /** A byte string as a JSON string literal. */
  function QuoteBytes(s: seq<Byte>): seq<Byte> {
    Encode("\"") + BodyBytes(s) + Encode("\"")
  }

  /** The array elements of the (non-empty) arguments. */
  function ElementsBytes(args: seq<seq<Byte>>): seq<Byte>
    requires |args| > 0
  {
    if |args| == 1 then QuoteBytes(args[0])
    else QuoteBytes(args[0]) + (Encode(",") + ElementsBytes(args[1..]))
  }

  /** The `args` member, omitted when there are no arguments. */
  function ArgsBytes(args: seq<seq<Byte>>): seq<Byte> {
    if |args| == 0 then [] else Encode(Actions.ArgsOpen) + ElementsBytes(args) + Encode("]")
  }

  /** The bytes `json.Marshal` gives for an action. */
  function JsonBytes(a: ByteAction): seq<Byte> {
    Encode(Actions.CommandOpen) + (QuoteBytes(a.command.name)
      + (ArgsBytes(a.command.args) + (Encode(Actions.PluginOpen) + QuoteBytes(a.plugin) + Encode("}"))))
  }

  /** The digest trailer, one byte per character of the character-level trailer. */
  function DigestBytes(): seq<Byte> {
    seq(|Actions.EmptyDigest|, i requires 0 <= i < |Actions.EmptyDigest| => (Actions.EmptyDigest[i] as int % 256) as Byte)
  }

  /** The key `Hash` computes for an action, before base64. */
  function HashBytes(a: ByteAction): seq<Byte> {
    JsonBytes(a) + DigestBytes()
  }

  /** Every invalid byte is written the same way. */
  lemma InvalidBytesAlike(x: Byte, y: Byte)
    requires 0x80 <= x as int && 0x80 <= y as int
    requires Invalid([x]) && Invalid([y])
    ensures QuoteBytes([x]) == QuoteBytes([y])
  {
    assert [x][1..] == [] && [y][1..] == [];
  }

  /** Two commands that differ only in a Latin-1 argument byte, `rm é` and
      `rm è`, get the same key; a decision cached for one answers the other. */
  lemma KeyCollision()
    ensures var a := ByteAction(ByteCommand(Encode("rm"), [[0xE9]]), Encode("plugin"));
            var b := ByteAction(ByteCommand(Encode("rm"), [[0xE8]]), Encode("plugin"));
            a != b && HashBytes(a) == HashBytes(b)
  {
    InvalidBytesAlike(0xE9, 0xE8);
    assert [0xE9 as Byte] != [0xE8 as Byte] by {
      assert [0xE9 as Byte][0] != [0xE8 as Byte][0];
    }
  }

  // ---------------------------------------------------------------------------
  // The written text of valid input

  /** For valid UTF-8, the bytes written are the UTF-8 encoding of the
      character-level escape of the text. */
  lemma {:induction false} BodyOfValid(s: seq<Byte>)
    requires Decode(s).Some?
    ensures BodyBytes(s) == Encode(JsonText.Escape(Decode(s).value))
    decreases |s|
  {
    if |s| > 0 {
      var c, n := ValidStep(s);
      var rest := Decode(s[n..]).value;
      BodyOfValid(s[n..]);
      BodyStep(s, c, n);
      EncodeAppend(JsonText.EscapeChar(c), JsonText.Escape(rest));
      assert ([c] + rest)[1..] == rest;
    }
  }

  /** The bytes written for the first rune of valid input are the encoding of
      its character-level escape. */
  lemma BodyStep(s: seq<Byte>, c: char, n: nat)
    requires |s| > 0 && !Invalid(s) && n == DecodeRune(s).1 && c as int == DecodeRune(s).0
    requires EncodeRune(c) == s[..n]
    ensures BodyBytes(s) == Encode(JsonText.EscapeChar(c)) + BodyBytes(s[n..])
  {
    if s[0] < 0x80 {
      BodyAscii(s, c, n);
    } else if c as int == 0x2028 || c as int == 0x2029 {
      BodySeparator(s, c, n);
    } else {
      BodyCopied(s, c, n);
    }
  }

  lemma BodyAscii(s: seq<Byte>, c: char, n: nat)
    requires |s| > 0 && s[0] < 0x80 && n == DecodeRune(s).1 && c as int == DecodeRune(s).0
    ensures BodyBytes(s) == Encode(JsonText.EscapeChar(c)) + BodyBytes(s[n..])
  {
    assert n == 1 && c == s[0] as int as char;
  }

  lemma BodySeparator(s: seq<Byte>, c: char, n: nat)
    requires |s| > 0 && s[0] >= 0x80 && !Invalid(s) && n == DecodeRune(s).1 && c as int == DecodeRune(s).0
    requires c as int == 0x2028 || c as int == 0x2029
    ensures BodyBytes(s) == Encode(JsonText.EscapeChar(c)) + BodyBytes(s[n..])
  {
  }

  lemma BodyCopied(s: seq<Byte>, c: char, n: nat)
    requires |s| > 0 && s[0] >= 0x80 && !Invalid(s) && n == DecodeRune(s).1 && c as int == DecodeRune(s).0
    requires c as int != 0x2028 && c as int != 0x2029
    requires EncodeRune(c) == s[..n]
    ensures BodyBytes(s) == Encode(JsonText.EscapeChar(c)) + BodyBytes(s[n..])
  {
    assert c as int >= 0x80;
    EscapeCopied(c);
  }

  /** A character from U+0080 on, other than the two separators, is written
      as its own UTF-8 bytes. */
  lemma EscapeCopied(c: char)
    requires c as int >= 0x80 && c as int != 0x2028 && c as int != 0x2029
    ensures Encode(JsonText.EscapeChar(c)) == EncodeRune(c)
  {
    assert JsonText.EscapeChar(c) == [c];
    EncodeCons(c, [], EncodeRune(c), []);
    assert [c] + [] == [c];
  }

  /** For valid UTF-8, the quoted bytes are the encoding of the quoted text. */
  lemma QuoteOfValid(s: seq<Byte>)
    requires Decode(s).Some?
    ensures QuoteBytes(s) == Encode(JsonText.Quote(Decode(s).value))
  {
    var e := JsonText.Escape(Decode(s).value);
    BodyOfValid(s);
    EncodeAppend(['"'] + e, ['"']);
    EncodeAppend(['"'], e);
  }

  /** For valid arguments, the array elements written are the encoding of the
      character-level elements. */
  lemma {:induction false} ElementsOfValid(args: seq<seq<Byte>>, xs: seq<string>)
    requires |args| > 0 && |xs| == |args|
    requires forall i :: 0 <= i < |args| ==> Decode(args[i]) == Some(xs[i])
    ensures ElementsBytes(args) == Encode(Actions.ArgsElements(xs))
    decreases |args|
  {
    QuoteOfValid(args[0]);
    if |args| > 1 {
      assert forall i :: 0 <= i < |args[1..]| ==> args[1..][i] == args[i + 1] && xs[1..][i] == xs[i + 1];
      ElementsOfValid(args[1..], xs[1..]);
      EncodeAppend([','], Actions.ArgsElements(xs[1..]));
      EncodeAppend(JsonText.Quote(xs[0]), [','] + Actions.ArgsElements(xs[1..]));
    }
  }

  /** For valid arguments, the `args` member written is the encoding of the
      character-level member. */
  lemma ArgsOfValid(args: seq<seq<Byte>>, xs: seq<string>)
    requires |xs| == |args|
    requires forall i :: 0 <= i < |args| ==> Decode(args[i]) == Some(xs[i])
    ensures ArgsBytes(args) == Encode(Actions.ArgsText(xs))
  {
    if |args| > 0 {
      ElementsOfValid(args, xs);
      EncodeAppend(Actions.ArgsOpen, Actions.ArgsElements(xs));
      EncodeAppend(Actions.ArgsOpen + Actions.ArgsElements(xs), "]");
    }
  }

  /** For an action whose fields are valid UTF-8, the bytes `json.Marshal`
      writes are the UTF-8 encoding of the character-level JSON text, so the
      character-level model of the key is exact for such actions. */
  lemma JsonOfValid(a: ByteAction)
    requires ToAction(a).Some?
    ensures JsonBytes(a) == Encode(Actions.Json(ToAction(a).value))
  {
    var x := ToAction(a).value;
    var xs := x.command.args;
    QuoteOfValid(a.command.name);
    QuoteOfValid(a.plugin);
    ArgsOfValid(a.command.args, xs);
    var q := JsonText.Quote(x.plugin);
    var t4 := Actions.PluginOpen + q + "}";
    EncodeAppend(Actions.PluginOpen, q);
    EncodeAppend(Actions.PluginOpen + q, "}");
    var t3 := Actions.ArgsText(xs) + t4;
    EncodeAppend(Actions.ArgsText(xs), t4);
    var t2 := JsonText.Quote(x.command.name) + t3;
    EncodeAppend(JsonText.Quote(x.command.name), t3);
    EncodeAppend(Actions.CommandOpen, t2);
  }

  /** For an action whose strings are all valid UTF-8, the key bytes are the
      encoding of the character-level JSON text followed by the digest bytes.
      (The character-level key holds the same digest as one character per
      byte.) */
  lemma HashOfValid(a: ByteAction)
    requires ToAction(a).Some?
    ensures HashBytes(a) == Encode(Actions.Json(ToAction(a).value)) + DigestBytes()
  {
    JsonOfValid(a);
  }

  // ---------------------------------------------------------------------------
  // The corrected key

  /** Decodes every argument, or None when one of them is not valid UTF-8. */
  function DecodeAll(args: seq<seq<Byte>>): (r: Option<seq<string>>)
    ensures r.Some? ==> |r.value| == |args|
    ensures r.Some? <==> forall i :: 0 <= i < |args| ==> Decode(args[i]).Some?
    ensures r.Some? ==> forall i :: 0 <= i < |args| ==> r.value[i] == Decode(args[i]).value
  {
    if |args| == 0 then Some([])
    else
      var head, tail := Decode(args[0]), DecodeAll(args[1..]);
      if head.Some? && tail.Some? then Some([head.value] + tail.value)
      else
        assert Decode(args[0]).None? || exists i :: 1 <= i < |args| && Decode(args[i]).None? by {
          if head.Some? {
            var k :| 0 <= k < |args[1..]| && Decode(args[1..][k]).None?;
            assert args[1..][k] == args[k + 1];
          }
        }
        None
  }

  /** The action a byte-level action denotes, when all its fields are valid UTF-8. */
  function ToAction(a: ByteAction): (r: Option<Actions.Action>)
    ensures r.Some? <==> Decode(a.command.name).Some? && DecodeAll(a.command.args).Some?
                         && Decode(a.plugin).Some?
  {
    var name, args, plugin := Decode(a.command.name), DecodeAll(a.command.args), Decode(a.plugin);
    if name.Some? && args.Some? && plugin.Some?
    then Some(Actions.Action(Actions.Command(name.value, args.value), plugin.value))
    else None
  }

  /** The corrected key: the key of the text the action spells, and no key at
      all for an action with a field that is not valid UTF-8. */
  function CheckedKey(a: ByteAction): Option<seq<char>> {
    match ToAction(a)
    case Some(x) => Some(Actions.Hash(x))
    case None => None
  }

  lemma DecodeAllInjective(xs: seq<seq<Byte>>, ys: seq<seq<Byte>>)
    requires DecodeAll(xs).Some? && DecodeAll(xs) == DecodeAll(ys)
    ensures xs == ys
  {
    forall i | 0 <= i < |xs| ensures xs[i] == ys[i] {
      DecodeInjective(xs[i], ys[i]);
    }
  }

  /** The corrected key never collides: two actions that both have a key share
      it exactly when they are the same action. */
  lemma CheckedKeyInjective(a: ByteAction, b: ByteAction)
    requires CheckedKey(a).Some?
    ensures CheckedKey(a) == CheckedKey(b) <==> a == b
  {
    if CheckedKey(a) == CheckedKey(b) {
      var x, y := ToAction(a).value, ToAction(b).value;
      Actions.HashInjective(x, y);
      DecodeInjective(a.command.name, b.command.name);
      DecodeAllInjective(a.command.args, b.command.args);
      DecodeInjective(a.plugin, b.plugin);
    }
  }
}

=== FILE: cli.dfy ===
/** The small command-line toolkit (cli/cli.go): ANSI colour and cursor
    escape codes, and the router that dispatches an invocation to the
    command with the matching name. */
module Cli {
  import opened Wrappers
  import Decimal
  import Seqs

  /** The escape character that starts every ANSI control sequence. */
  const Esc: string := "\U{1b}"

  /** The control sequence introducer: escape, then `[`. */
  const Csi: string := Esc + "["

  /** Resets all text attributes. */
  const Reset: string := Csi + "0m"

  // ---------------------------------------------------------------------------
  // Formatting

  /** `fmt.Sprintf` restricted to the `%s` verb and the `%%` escape: each `%s`
      takes the next argument (Go writes `%!s(MISSING)` when none is left);
      every other character is copied. */
  function Sprintf(format: string, args: seq<string>): string
    decreases |format|
  {
    if |format| == 0 then ""
    else if |format| >= 2 && format[0] == '%' && format[1] == 's' then
      if |args| > 0 then args[0] + Sprintf(format[2..], args[1..])
      else "%!s(MISSING)" + Sprintf(format[2..], args)
    else if |format| >= 2 && format[0] == '%' && format[1] == '%' then "%" + Sprintf(format[2..], args)
    else [format[0]] + Sprintf(format[1..], args)
  }

  /** Text without a verb is copied through unchanged. */
  lemma {:induction false} SprintfLiteral(p: string, rest: string, args: seq<string>)
    requires '%' !in p
    ensures Sprintf(p + rest, args) == p + Sprintf(rest, args)
    decreases |p|
  {
    if |p| > 0 {
      assert (p + rest)[1..] == p[1..] + rest;
      SprintfLiteral(p[1..], rest, args);
      assert [p[0]] + p[1..] == p;
    } else {
      assert p + rest == rest;
    }
  }

  /** A `%s` verb takes the next argument. */
  lemma SprintfVerb(rest: string, x: string, args: seq<string>)
    ensures Sprintf("%s" + rest, [x] + args) == x + Sprintf(rest, args)
  {
    assert ("%s" + rest)[2..] == rest;
    assert ([x] + args)[1..] == args;
  }

  /** Text without any `%` is copied through unchanged. */
  lemma SprintfPlain(p: string, args: seq<string>)
    requires '%' !in p
    ensures Sprintf(p, args) == p
  {
    SprintfLiteral(p, "", args);
    assert p + "" == p;
  }

  /** A format with one `%s` slot between two verb-free texts wraps the one
      argument in them. */
  lemma SprintfWrap(pre: string, x: string, post: string)
    requires '%' !in pre && '%' !in post
    ensures Sprintf(pre + "%s" + post, [x]) == pre + x + post
  {
    Seqs.Assoc(pre, "%s", post);
    SprintfLiteral(pre, "%s" + post, [x]);
    assert [x] == [x] + [];
    SprintfVerb(post, x, []);
    SprintfPlain(post, []);
    Seqs.Assoc(pre, x, post);
  }

  /** The two-slot format of a decision label: "name (shortcut)". */
  lemma SprintfLabel(name: string, shortcut: string)
    ensures Sprintf("%s (%s)", [name, shortcut]) == name + " (" + shortcut + ")"
  {
    var tail := " (" + "%s" + ")";
    assert "%s (%s)" == "%s" + tail;
    assert [name, shortcut] == [name] + [shortcut];
    SprintfVerb(tail, name, [shortcut]);
    SprintfWrap(" (", shortcut, ")");
    Seqs.Assoc(name, " (" + shortcut, ")");
    Seqs.Assoc(name, " (", shortcut);
  }

  /** The terminal colours the program uses. */
  datatype Color = Green | Yellow | Blue | Red | White {

    /** The escape code that switches to the colour. */
    function Code(): string {
      match this
      case Green => Csi + "1;32m"
      case Yellow => Csi + "1;33m"
      case Blue => Csi + "1;34m"
      case Red => Csi + "1;31m"
      case White => Csi + "1;37m"
    }
  }

  /** `FmtString`: a format with one `%s` slot between the colour code and the reset. */
  function FmtString(c: Color): string {
    c.Code() + "%s" + Reset
  }

  /** `Format`: the text wrapped in the colour code and the reset code, with
      the text copied verbatim whatever it contains. */
  function Format(c: Color, text: string): (r: string)
    ensures r == c.Code() + text + Reset
  {
    SprintfWrap(c.Code(), text, Reset);
    Sprintf(FmtString(c), [text])
  }

  // ---------------------------------------------------------------------------
  // Cursor movement

  /** `CursorTo`: move the cursor to `row` and `col`. */
  function CursorTo(row: int, col: int): (r: string)
    ensures ParseCursor(r) == Some(To(row, col))
  {
    ParsePosition(row, col);
    Csi + Decimal.IntToString(row) + ";" + Decimal.IntToString(col) + "H"
  }

  /** `CursorUp`: move the cursor up `rows` rows. */
  function CursorUp(rows: int): (r: string)
    ensures ParseCursor(r) == Some(Up(rows))
  {
    ParseVertical(rows, 'A');
    Csi + Decimal.IntToString(rows) + "A"
  }

  /** `CursorDown`: move the cursor down `rows` rows. */
  function CursorDown(rows: int): (r: string)
    ensures ParseCursor(r) == Some(Down(rows))
  {
    ParseVertical(rows, 'B');
    Csi + Decimal.IntToString(rows) + "B"
  }

  /** The cursor movements the three builders produce. */
  datatype CursorMove = To(row: int, col: int) | Up(rows: int) | Down(rows: int)

  /** The escape code for a movement. */
  function Render(m: CursorMove): string {
    match m
    case To(r, c) => CursorTo(r, c)
    case Up(n) => CursorUp(n)
    case Down(n) => CursorDown(n)
  }

  /** The position of the first `c` in `s`. */
  function IndexOf(s: string, c: char): (r: Option<nat>)
    ensures r.Some? ==> r.value < |s| && s[r.value] == c && c !in s[..r.value]
    ensures r.None? ==> c !in s
  {
    if |s| == 0 then None
    else if s[0] == c then Some(0)
    else match IndexOf(s[1..], c)
      case None => None
      case Some(i) =>
        assert s[..i + 1] == [s[0]] + s[1..][..i];
        Some(i + 1)
  }

  /** A terminal's reading of a cursor-movement escape code. */
  function ParseCursor(s: string): Option<CursorMove> {
    if |s| < 3 || s[..2] != Csi then None
    else
      var body, final := s[2..|s| - 1], s[|s| - 1];
      if final == 'A' then
        match Decimal.ParseInt(body) case Some(n) => Some(Up(n)) case None => None
      else if final == 'B' then
        match Decimal.ParseInt(body) case Some(n) => Some(Down(n)) case None => None
      else if final == 'H' then
        match IndexOf(body, ';')
        case None => None
        case Some(i) =>
          match (Decimal.ParseInt(body[..i]), Decimal.ParseInt(body[i + 1..]))
          case (Some(r), Some(c)) => Some(To(r, c))
          case _ => None
      else None
  }

  lemma IndexAfter(x: string, y: string)
    requires ';' !in x
    ensures IndexOf(x + ";" + y, ';') == Some(|x|)
  {
    var s := x + ";" + y;
    var r := IndexOf(s, ';');
    assert s[|x|] == ';';
  }

  /** An up or down movement is read back with its row count. */
  lemma ParseVertical(n: int, final: char)
    requires final == 'A' || final == 'B'
    ensures ParseCursor(Csi + Decimal.IntToString(n) + [final])
      == Some(if final == 'A' then Up(n) else Down(n))
  {
    var x := Decimal.IntToString(n);
    var s := Csi + x + [final];
    Seqs.Framed(Csi, x, [final]);
    assert s[2..|s| - 1] == x;
    assert s[|s| - 1] == final;
  }

  /** How the terminal reads a position code once its parts are known. */
  lemma ParseCursorTo(s: string, body: string, i: nat, row: int, col: int)
    requires |s| >= 3 && s[..2] == Csi && s[2..|s| - 1] == body && s[|s| - 1] == 'H'
    requires IndexOf(body, ';') == Some(i)
    requires Decimal.ParseInt(body[..i]) == Some(row) && Decimal.ParseInt(body[i + 1..]) == Some(col)
    ensures ParseCursor(s) == Some(To(row, col))
  {
  }

  /** A move to a position is read back with its row and column. */
  lemma ParsePosition(row: int, col: int)
    ensures ParseCursor(Csi + Decimal.IntToString(row) + ";" + Decimal.IntToString(col) + "H") == Some(To(row, col))
  {
    var x, y := Decimal.IntToString(row), Decimal.IntToString(col);
    var body := x + ";" + y;
    Seqs.Assoc(Csi, x, ";");
    Seqs.Assoc(Csi, x + ";", y);
    var s := Csi + body + "H";
    assert Csi + x + ";" + y + "H" == s;
    Seqs.Framed(Csi, body, "H");
    IndexAfter(x, y);
    Seqs.Framed(x, ";", y);
    ParseCursorTo(s, body, |x|, row, col);
  }

  /** Each escape code the builders produce is read back as the movement it
      was built from: the decimal numbers are rendered faithfully. */
  lemma ParseRender(m: CursorMove)
    ensures ParseCursor(Render(m)) == Some(m)
  {
    match m
    case Up(n) =>
      assert Render(m) == Csi + Decimal.IntToString(n) + ['A'];
      ParseVertical(n, 'A');
    case Down(n) =>
      assert Render(m) == Csi + Decimal.IntToString(n) + ['B'];
      ParseVertical(n, 'B');
    case To(r, c) =>
      ParsePosition(r, c);
  }


  // ---------------------------------------------------------------------------
  // Command routing

  /** A command of the application; `hasHandler` is false for a nil `Handler`. */
  datatype Command = Command(name: string, usage: string, hasHandler: bool)

  /** What an invocation does: show the help text, run the handler of the
      command at `index` with `args`, or fail on a matched command without a handler. */
  datatype Outcome = ShowHelp | Ran(index: nat, args: seq<string>) | NoHandler(name: string)

  /** The outcome of `Run` together with the error it returns. */
  datatype RunResult = RunResult(outcome: Outcome, err: Option<string>)

  /** `executeIfCommand`'s search: the index of the first command named `name`. */
  function FindCommand(commands: seq<Command>, name: string): (r: Option<nat>)
    ensures r.Some? ==> r.value < |commands| && commands[r.value].name == name
                        && forall j :: 0 <= j < r.value ==> commands[j].name != name
    ensures r.None? ==> forall j :: 0 <= j < |commands| ==> commands[j].name != name
  {
    if |commands| == 0 then None
    else if commands[0].name == name then Some(0)
    else match FindCommand(commands[1..], name)
      case None => None
      case Some(i) => Some(i + 1)
  }

  /** `executeCommand`: the error of a command without a handler, or whatever
      the handler returns; `invoke(i, args)` stands for the error the handler
      of command `i` returns when called with `args`. */
  function ExecuteCommand(commands: seq<Command>, i: nat, args: seq<string>,
                          invoke: (nat, seq<string>) -> Option<string>): (r: RunResult)
    requires i < |commands|
    ensures commands[i].hasHandler ==> r == RunResult(Ran(i, args), invoke(i, args))
    ensures !commands[i].hasHandler ==>
              r == RunResult(NoHandler(commands[i].name), Some(commands[i].name + " does not have a handler."))
  {
    if !commands[i].hasHandler then
      RunResult(NoHandler(commands[i].name), Some(commands[i].name + " does not have a handler."))
    else RunResult(Ran(i, args), invoke(i, args))
  }

  /** `executeIfCommand`: runs the first command named `cmd`, or reports (None)
      that no command has that name. */
  function ExecuteIfCommand(commands: seq<Command>, cmd: string, args: seq<string>,
                            invoke: (nat, seq<string>) -> Option<string>): (r: Option<RunResult>)
    ensures r.None? <==> forall j :: 0 <= j < |commands| ==> commands[j].name != cmd
    ensures r.Some? ==> exists i :: 0 <= i < |commands| && commands[i].name == cmd
                                    && (forall j :: 0 <= j < i ==> commands[j].name != cmd)
                                    && r.value == ExecuteCommand(commands, i, args, invoke)
  {
    match FindCommand(commands, cmd)
    case Some(i) => Some(ExecuteCommand(commands, i, args, invoke))
    case None => None
  }

  /** `App.Run`: no argument or a help flag shows the help; otherwise the first
      command whose name is the first argument runs with the remaining
      arguments; an unknown name shows the help without an error. */
  function Run(commands: seq<Command>, arguments: seq<string>,
               invoke: (nat, seq<string>) -> Option<string>): (r: RunResult)
    ensures |arguments| == 0 || arguments[0] == "-h" || arguments[0] == "--help"
            ==> r == RunResult(ShowHelp, None)
    ensures r.outcome.ShowHelp? ==> r.err.None?
    ensures r.outcome.ShowHelp? && |arguments| > 0 && arguments[0] != "-h" && arguments[0] != "--help"
            ==> forall j :: 0 <= j < |commands| ==> commands[j].name != arguments[0]
    ensures r.outcome.Ran? ==>
              && |arguments| > 0
              && r.outcome.index < |commands|
              && commands[r.outcome.index].name == arguments[0]
              && commands[r.outcome.index].hasHandler
              && (forall j :: 0 <= j < r.outcome.index ==> commands[j].name != arguments[0])
              && r.outcome.args == arguments[1..]
              && r.err == invoke(r.outcome.index, arguments[1..])
    ensures r.outcome.NoHandler? ==> |arguments| > 0 && r.outcome.name == arguments[0] && r.err.Some?
    ensures |arguments| > 0 && arguments[0] != "-h" && arguments[0] != "--help" ==>
              forall i :: 0 <= i < |commands| && commands[i].name == arguments[0]
                          && (forall j :: 0 <= j < i ==> commands[j].name != arguments[0]) ==>
                && (commands[i].hasHandler ==> r == RunResult(Ran(i, arguments[1..]), invoke(i, arguments[1..])))
                && (!commands[i].hasHandler ==>
                      r == RunResult(NoHandler(arguments[0]), Some(arguments[0] + " does not have a handler.")))
  {
    if |arguments| == 0 then RunResult(ShowHelp, None)
    else
      var cmd := arguments[0];
      if cmd == "-h" || cmd == "--help" then RunResult(ShowHelp, None)
      else
        var cmdArgs := if |arguments| > 1 then arguments[1..] else [];
        match ExecuteIfCommand(commands, cmd, cmdArgs, invoke)
        case Some(result) => result
        case None => RunResult(ShowHelp, None)
  }

  /** A name that matches no command runs nothing and shows the help; the
      help flags win even over a command of that name. */
  lemma RouteByName(commands: seq<Command>, arguments: seq<string>,
                    invoke: (nat, seq<string>) -> Option<string>)
    requires |arguments| > 0 && arguments[0] != "-h" && arguments[0] != "--help"
    ensures Run(commands, arguments, invoke).outcome.ShowHelp?
            <==> forall j :: 0 <= j < |commands| ==> commands[j].name != arguments[0]
  {
  }

  /** The routing scenario of the command tests: an unknown name runs nothing,
      a bare command runs with no arguments, and the remaining arguments are
      passed on in order. */
  lemma RoutingScenario(invoke: (nat, seq<string>) -> Option<string>)
    ensures var commands := [Command("mycommand", "usage", true), Command("mycommand2", "usage", true)];
            && Run(commands, ["hi"], invoke) == RunResult(ShowHelp, None)
            && Run(commands, ["mycommand"], invoke).outcome == Ran(0, [])
            && Run(commands, ["mycommand2", "Hello", "Second argument"], invoke).outcome
               == Ran(1, ["Hello", "Second argument"])
  {
  }
}

=== FILE: cli_ui.dfy ===
/** The interactive review queue (ui/cli_ui.go), as state transitions. Plugin
    requests join a queue; the reviewer answers the head of the queue with a
    shortcut; the decision goes back on the head's response channel and the
    head leaves the queue. Sending on a channel is recorded as an entry of a
    delivery log, so the order and number of decisions can be stated. */
module CliUi {
  import opened Policies
  import Actions
  import Cli
  import Seqs

  /** A request's response channel, identified by a number. */
  type Channel = nat

  /** `requestResponse`: the action under review and where its decision goes. */
  datatype Request = Request(req: Actions.Action, res: Channel)

  /** One send of a decision on a response channel. */
  datatype Delivery = Delivery(res: Channel, policy: Policy)

  /** The review state: the queued requests (the head is under review), whether
      a prompt cycle is running, and every decision sent so far, in order. */
  datatype Ui = Ui(queue: seq<Request>, prompting: bool, delivered: seq<Delivery>)

  /** A prompt cycle runs exactly when some request waits for review. */
  predicate Valid(ui: Ui) {
    ui.prompting <==> |ui.queue| > 0
  }

  /** `NewCli`: an empty queue, no prompt, nothing sent. */
  function NewCli(): (ui: Ui)
    ensures Valid(ui) && |ui.queue| == 0 && |ui.delivered| == 0
  {
    Ui([], false, [])
  }

  /** `handleQueue`: with one queued request the prompt cycle for it starts;
      with more only the displayed list is redrawn, which changes no state. */
  function HandleQueue(ui: Ui): (r: Ui)
    ensures r.queue == ui.queue && r.delivered == ui.delivered
    ensures Valid(ui) ==> r == ui
    ensures |ui.queue| == 1 ==> r.prompting && Valid(r)
    ensures |ui.queue| != 1 ==> r == ui
  {
    if |ui.queue| == 0 then ui
    else if |ui.queue| > 1 then ui
    else ui.(prompting := true)
  }

  /** `Handle`: the request joins the tail of the queue. A new prompt cycle
      starts exactly when the queue was empty before. */
  function Handle(ui: Ui, req: Actions.Action, res: Channel): (r: Ui)
    ensures r.queue == ui.queue + [Request(req, res)]
    ensures r.delivered == ui.delivered
    ensures Valid(ui) ==> Valid(r)
    ensures Valid(ui) ==> (r.prompting && !ui.prompting <==> |ui.queue| == 0)
  {
    HandleQueue(ui.(queue := ui.queue + [Request(req, res)]))
  }

  /** One line the reviewer types while the head is under review
      (`handlePrompt` with `getShortcutInput`). A line that is not a shortcut
      changes nothing and the prompt asks again. A shortcut sends
      `ByShortcut(input)` on the head's channel, pops exactly the head, and the
      next cycle starts exactly when requests remain. */
  function Answer(ui: Ui, input: string): (r: Ui)
    requires |ui.queue| > 0
    ensures !ShortcutValid(input) ==> r == ui
    ensures ShortcutValid(input) ==>
              && r.queue == ui.queue[1..]
              && r.delivered == ui.delivered + [Delivery(ui.queue[0].res, ByShortcut(input).value)]
              && r.delivered[|ui.delivered|].policy.Shortcut() == input
              && (r.prompting <==> |r.queue| > 0)
  {
    if !ShortcutValid(input) then ui
    else
      var policy := ByShortcut(input).value;
      var rest := ui.queue[1..];
      Ui(rest, |rest| > 0, ui.delivered + [Delivery(ui.queue[0].res, policy)])
  }

  /** `getShortcutInput` over the lines the reviewer types: the position of the
      first line that is a shortcut, skipping (and re-prompting on) every line
      before it. `found` is false when the lines run out first, where the
      source's read fails fatally. */
  method GetShortcutInput(inputs: seq<string>) returns (found: bool, k: nat)
    ensures found ==> k < |inputs| && ShortcutValid(inputs[k])
    ensures !found ==> k == |inputs|
    ensures forall j :: 0 <= j < k ==> !ShortcutValid(inputs[j])
  {
    k := 0;
    while k < |inputs|
      invariant k <= |inputs|
      invariant forall j :: 0 <= j < k ==> !ShortcutValid(inputs[j])
    {
      if ShortcutValid(inputs[k]) {
        return true, k;
      }
      k := k + 1;
    }
    return false, k;
  }

  /** `handlePrompt` over the lines the reviewer types: reads lines until one
      is a shortcut, then answers the head with it. `used` lines are consumed;
      when no line is a shortcut the state is unchanged. */
  method HandlePrompt(ui: Ui, inputs: seq<string>) returns (r: Ui, used: nat)
    requires |ui.queue| > 0
    ensures used <= |inputs|
    ensures forall j :: 0 <= j && j + 1 < used ==> !ShortcutValid(inputs[j]) && Answer(ui, inputs[j]) == ui
    ensures used > 0 ==> ShortcutValid(inputs[used - 1]) && r == Answer(ui, inputs[used - 1])
    ensures used == 0 ==> r == ui && forall j :: 0 <= j < |inputs| ==> !ShortcutValid(inputs[j])
  {
    var found, k := GetShortcutInput(inputs);
    if !found {
      return ui, 0;
    }
    r := Answer(ui, inputs[k]);
    used := k + 1;
  }

  // ---------------------------------------------------------------------------
  // Runs of the queue

  /** What can happen to the queue: a plugin submits a request, or the
      reviewer's prompt reads a line. */
  datatype Event = Submit(req: Actions.Action, res: Channel) | Key(input: string)

  /** One event. A line read while no request is queued changes nothing (the
      source only reads input while a prompt cycle runs). */
  function Step(ui: Ui, e: Event): Ui {
    match e
    case Submit(a, c) => Handle(ui, a, c)
    case Key(input) => if |ui.queue| > 0 then Answer(ui, input) else ui
  }

  /** The state after `events`, starting from a new interface. */
  function Run(events: seq<Event>): Ui
    decreases |events|
  {
    if |events| == 0 then NewCli() else Step(Run(events[..|events| - 1]), events[|events| - 1])
  }

  /** The channels of the submitted requests, in submission order. */
  function Submitted(events: seq<Event>): seq<Channel>
    decreases |events|
  {
    if |events| == 0 then []
    else
      var last := events[|events| - 1];
      Submitted(events[..|events| - 1]) + (if last.Submit? then [last.res] else [])
  }

  /** The channels decisions were sent on, in order. */
  function Channels(ds: seq<Delivery>): seq<Channel> {
    if |ds| == 0 then [] else [ds[0].res] + Channels(ds[1..])
  }

  /** The channels of the queued requests, head first. */
  function Pending(q: seq<Request>): seq<Channel> {
    if |q| == 0 then [] else [q[0].res] + Pending(q[1..])
  }

  lemma {:induction false} ChannelsAppend(ds: seq<Delivery>, d: Delivery)
    ensures Channels(ds + [d]) == Channels(ds) + [d.res]
    decreases |ds|
  {
    if |ds| > 0 {
      assert (ds + [d])[1..] == ds[1..] + [d];
      ChannelsAppend(ds[1..], d);
    } else {
      assert ds + [d] == [d];
    }
  }

  lemma {:induction false} PendingAppend(q: seq<Request>, r: Request)
    ensures Pending(q + [r]) == Pending(q) + [r.res]
    decreases |q|
  {
    if |q| > 0 {
      assert (q + [r])[1..] == q[1..] + [r];
      PendingAppend(q[1..], r);
    } else {
      assert q + [r] == [r];
    }
  }

  /** One event keeps the invariant, and extends the answered-then-queued
      channels by the submitted channel, if any. */
  lemma StepInvariant(ui: Ui, e: Event)
    requires Valid(ui)
    ensures Valid(Step(ui, e))
    ensures Channels(Step(ui, e).delivered) + Pending(Step(ui, e).queue)
            == Channels(ui.delivered) + Pending(ui.queue) + (if e.Submit? then [e.res] else [])
  {
    var r := Step(ui, e);
    match e
    case Submit(a, c) =>
      PendingAppend(ui.queue, Request(a, c));
      assert Pending(r.queue) == Pending(ui.queue) + [c];
    case Key(input) =>
      if |ui.queue| > 0 && ShortcutValid(input) {
        var d := Delivery(ui.queue[0].res, ByShortcut(input).value);
        assert r.delivered == ui.delivered + [d] && r.queue == ui.queue[1..];
        ChannelsAppend(ui.delivered, d);
        assert Pending(ui.queue) == [d.res] + Pending(r.queue);
      }
  }

  /** The queue invariant of every run: a prompt runs exactly when requests
      wait, and the channels already answered followed by the channels still
      queued are exactly the submitted channels in submission order. So every
      request is answered at most once, in arrival order, and none is lost. */
  lemma {:induction false} RunInvariant(events: seq<Event>)
    ensures Valid(Run(events))
    ensures Channels(Run(events).delivered) + Pending(Run(events).queue) == Submitted(events)
    decreases |events|
  {
    if |events| > 0 {
      var prefix := events[..|events| - 1];
      var e := events[|events| - 1];
      RunInvariant(prefix);
      StepInvariant(Run(prefix), e);
      assert Run(events) == Step(Run(prefix), e);
      assert Submitted(events) == Submitted(prefix) + (if e.Submit? then [e.res] else []);
    }
  }

  /** FIFO and at most once: the decisions sent so far went to a prefix of the
      submitted requests, in submission order. */
  lemma DeliveredInOrder(events: seq<Event>)
    ensures Channels(Run(events).delivered) <= Submitted(events)
  {
    RunInvariant(events);
  }

  /** Exactly once: once the queue has drained, every submitted request has
      received exactly one decision, in submission order. */
  lemma ExactlyOnceWhenDrained(events: seq<Event>)
    requires |Run(events).queue| == 0
    ensures Channels(Run(events).delivered) == Submitted(events)
  {
    RunInvariant(events);
  }

  /** The request under review is always the earliest submitted request that
      has not been answered yet. */
  lemma HeadIsOldestUnanswered(events: seq<Event>)
    requires |Run(events).queue| > 0
    ensures |Run(events).delivered| < |Submitted(events)|
    ensures Run(events).queue[0].res == Submitted(events)[|Run(events).delivered|]
  {
    RunInvariant(events);
    var ui := Run(events);
    ChannelsLength(ui.delivered);
    assert Pending(ui.queue) == [ui.queue[0].res] + Pending(ui.queue[1..]);
    assert Submitted(events)[|ui.delivered|] == (Channels(ui.delivered) + Pending(ui.queue))[|Channels(ui.delivered)|];
  }

  lemma {:induction false} ChannelsLength(ds: seq<Delivery>)
    ensures |Channels(ds)| == |ds|
    decreases |ds|
  {
    if |ds| > 0 {
      ChannelsLength(ds[1..]);
    }
  }

  /** Answering with a decision's own shortcut sends that decision on the
      head's channel and pops the head. */
  lemma AnswerWith(ui: Ui, p: Policy)
    requires |ui.queue| > 0
    ensures Answer(ui, p.Shortcut())
         == Ui(ui.queue[1..], |ui.queue| > 1, ui.delivered + [Delivery(ui.queue[0].res, p)])
    ensures Step(ui, Key(p.Shortcut())) == Answer(ui, p.Shortcut())
  {
    LookupRoundTrip(p);
  }

  /** Two submissions to a new interface queue both, in order, and start one cycle. */
  lemma SubmitTwo(a1: Actions.Action, a2: Actions.Action)
    ensures Step(Step(NewCli(), Submit(a1, 1)), Submit(a2, 2))
         == Ui([Request(a1, 1), Request(a2, 2)], true, [])
  {
    assert Step(NewCli(), Submit(a1, 1)) == Ui([Request(a1, 1)], true, []);
  }

  /** A line that is no decision's shortcut, here "x", is ignored. */
  lemma StrayLine(ui: Ui)
    requires |ui.queue| > 0
    ensures Step(ui, Key("x")) == ui
  {
    assert Allow.Shortcut() != "x" && AllowAlways.Shortcut() != "x" && Deny.Shortcut() != "x";
  }

  /** Answering a queue of known shape with a decision's shortcut. */
  lemma AnswerShape(ui: Ui, head: Request, rest: seq<Request>, p: Policy)
    requires ui.queue == [head] + rest
    ensures Step(ui, Key(p.Shortcut())) == Ui(rest, |rest| > 0, ui.delivered + [Delivery(head.res, p)])
  {
    AnswerWith(ui, p);
    assert ui.queue[1..] == rest;
  }

  /** Two requests from different plugins: the reviewer types Deny's shortcut
      and then Allow's; the first request is denied and the second allowed, in
      that order, and nothing is left waiting. Each ensures is one step of the run. */
  lemma TwoRequestScenario(a1: Actions.Action, a2: Actions.Action)
    ensures Step(Step(NewCli(), Submit(a1, 1)), Submit(a2, 2)) == Ui([Request(a1, 1), Request(a2, 2)], true, [])
    ensures Step(Ui([Request(a1, 1), Request(a2, 2)], true, []), Key(Deny.Shortcut()))
         == Ui([Request(a2, 2)], true, [Delivery(1, Deny)])
    ensures Step(Ui([Request(a2, 2)], true, [Delivery(1, Deny)]), Key(Allow.Shortcut()))
         == Ui([], false, [Delivery(1, Deny), Delivery(2, Allow)])
  {
    SubmitTwo(a1, a2);
    var r1, r2 := Request(a1, 1), Request(a2, 2);
    AnswerShape(Ui([r1, r2], true, []), r1, [r2], Deny);
    AnswerShape(Ui([r2], true, [Delivery(1, Deny)]), r2, [], Allow);
  }

  // ---------------------------------------------------------------------------
  // Decision labels

  /** `colorMap`: red for Deny, green for Allow and Always allow, white for any
      other policy value. */
  function ColorOf(rec: PolicyRecord): Cli.Color {
    if rec == Deny.Record() then Cli.Color.Red
    else if rec == Allow.Record() || rec == AllowAlways.Record() then Cli.Color.Green
    else Cli.Color.White
  }

  /** `decisionString`: "Name (shortcut)" in the policy's colour. */
  function DecisionString(rec: PolicyRecord): (r: string)
    ensures r == ColorOf(rec).Code() + rec.name + " (" + rec.shortcut + ")" + Cli.Reset
  {
    var code, n, sc := ColorOf(rec).Code(), rec.name, rec.shortcut;
    Cli.SprintfLabel(n, sc);
    Seqs.Assoc(code, n, " (");
    Seqs.Assoc(code, n + " (", sc);
    Seqs.Assoc(code, n + " (" + sc, ")");
    Cli.Format(ColorOf(rec), Cli.Sprintf("%s (%s)", [n, sc]))
  }

  /** A label in a known colour. */
  lemma LabelIn(rec: PolicyRecord, color: Cli.Color)
    requires ColorOf(rec) == color
    ensures DecisionString(rec) == color.Code() + rec.name + " (" + rec.shortcut + ")" + Cli.Reset
  {
  }

  /** The label of each decision: red for Deny, green for the two allowing
      decisions, and white for the zero policy value, which no decision equals. */
  lemma DecisionLabels(p: Policy)
    ensures DecisionString(p.Record()) == (if p == Deny then Cli.Color.Red else Cli.Color.Green).Code()
                                          + p.Name() + " (" + p.Shortcut() + ")" + Cli.Reset
    ensures DecisionString(ZeroRecord) == Cli.Color.White.Code() + " ()" + Cli.Reset
  {
    var color := if p == Deny then Cli.Color.Red else Cli.Color.Green;
    assert ColorOf(p.Record()) == color by {
      match p
      case Allow =>
      case AllowAlways =>
      case Deny =>
    }
    LabelIn(p.Record(), color);
    assert ZeroRecord.id != Deny.Record().id && ZeroRecord.id != Allow.Record().id
        && ZeroRecord.id != AllowAlways.Record().id;
    LabelIn(ZeroRecord, Cli.Color.White);
    var code := Cli.Color.White.Code();
    var none: string := "";
    assert code + none == code;
    assert code + " (" + none == code + " (";
    Seqs.Assoc(code, " (", ")");
    assert " (" + ")" == " ()";
  }
}

=== FILE: decimal.dfy ===
/** Decimal rendering of integers, as Go's `%d` verb writes them, and the
    reader that inverts it. */
module Decimal {
  import opened Wrappers

  predicate IsDigit(c: char) {
    '0' <= c <= '9'
  }

  function DigitChar(d: nat): (c: char)
    requires d < 10
    ensures IsDigit(c)
  {
    ('0' as int + d) as char
  }

  /** The decimal digits of `n`, without leading zeros. */
  function NatToString(n: nat): (s: string)
    ensures |s| > 0
    ensures forall i :: 0 <= i < |s| ==> IsDigit(s[i])
    ensures |s| > 1 ==> s[0] != '0'
    decreases n
  {
    if n < 10 then [DigitChar(n)] else NatToString(n / 10) + [DigitChar(n % 10)]
  }

  /** `%d`: a minus sign for negative values, then the digits of the magnitude.
      Reading the text back gives `i`. */
  function IntToString(i: int): (s: string)
    ensures |s| > 0
    ensures forall k :: 0 <= k < |s| ==> IsDigit(s[k]) || (k == 0 && s[k] == '-')
    ensures ParseInt(s) == Some(i)
  {
    if i < 0 then
      NegativeRoundTrip(-i);
      "-" + NatToString(-i)
    else
      NatRoundTrip(i);
      NatToString(i)
  }

  /** The value of a string of digits. */
  function DigitsValue(s: string): nat
    requires forall i :: 0 <= i < |s| ==> IsDigit(s[i])
  {
    if |s| == 0 then 0
    else
      assert IsDigit(s[|s| - 1]);
      DigitsValue(s[..|s| - 1]) * 10 + (s[|s| - 1] as int - '0' as int)
  }

  /** Reads an optionally negative decimal integer that fills all of `s`. */
  function ParseInt(s: string): Option<int> {
    if |s| > 0 && s[0] == '-' then
      if |s| > 1 && forall i :: 1 <= i < |s| ==> IsDigit(s[i]) then Some(0 - DigitsValue(s[1..]) as int) else None
    else if |s| > 0 && forall i :: 0 <= i < |s| ==> IsDigit(s[i]) then Some(DigitsValue(s))
    else None
  }

  /** The digits of `n` read back as `n`. */
  lemma {:induction false} NatRoundTrip(n: nat)
    ensures DigitsValue(NatToString(n)) == n
    ensures ParseInt(NatToString(n)) == Some(n)
    decreases n
  {
    if n >= 10 {
      NatRoundTrip(n / 10);
      var s := NatToString(n);
      assert s[..|s| - 1] == NatToString(n / 10);
    }
  }

  /** Reading back a minus sign and the digits of `n` gives `-n`. */
  lemma NegativeRoundTrip(n: nat)
    ensures ParseInt("-" + NatToString(n)) == Some(0 - n)
  {
    var d := NatToString(n);
    var s := "-" + d;
    assert s[1..] == d;
    assert forall k :: 1 <= k < |s| ==> IsDigit(s[k]) by {
      forall k | 1 <= k < |s| ensures IsDigit(s[k]) {
        assert s[k] == d[k - 1];
      }
    }
    NatRoundTrip(n);
  }
}

=== FILE: json_text.dfy ===
/** The slice of Go's `encoding/json` string encoding that action keys are
    built from: quoting a string with the escapes the 2020 encoder emits, and
    the matching reader, with the round trip that makes the encoding
    injective. */
module JsonText {
  import opened Wrappers

  /** Whether `c` is a valid Unicode scalar value, that is, a Dafny `char`. */
  predicate IsScalar(v: int) {
    (0 <= v < 0xD800) || (0xE000 <= v < 0x11_0000)
  }

  /** Characters the encoder writes as `\u` followed by four hex digits:
      control characters without a short escape, the HTML-sensitive `<`, `>`
      and `&`, and the line and paragraph separators. */
  predicate NeedsUnicodeEscape(c: char) {
    || (c as int < 0x20 && c != '\n' && c != '\r' && c != '\t')
    || c == '<' || c == '>' || c == '&'
    || c as int == 0x2028 || c as int == 0x2029
  }

  /** Lower-case hexadecimal digit for `d`. */
  function HexDigit(d: int): char
    requires 0 <= d < 16
  {
    if d < 10 then ('0' as int + d) as char else ('a' as int + d - 10) as char
  }

  /** The value of a hexadecimal digit of either case. */
  function HexValue(c: char): Option<int> {
    if '0' <= c <= '9' then Some(c as int - '0' as int)
    else if 'a' <= c <= 'f' then Some(c as int - 'a' as int + 10)
    else if 'A' <= c <= 'F' then Some(c as int - 'A' as int + 10)
    else None
  }

  /** Four hex digits, most significant first. */
  function Hex4(v: int): (s: seq<char>)
    requires 0 <= v < 0x1_0000
    ensures |s| == 4
  {
    [HexDigit(v / 16 / 16 / 16), HexDigit(v / 16 / 16 % 16), HexDigit(v / 16 % 16), HexDigit(v % 16)]
  }

  /** The value of four hex digits. */
  function Hex4Value(s: seq<char>): (r: Option<int>)
    requires |s| == 4
    ensures r.Some? ==> 0 <= r.value < 0x1_0000
  {
    match (HexValue(s[0]), HexValue(s[1]), HexValue(s[2]), HexValue(s[3]))
    case (Some(a), Some(b), Some(c), Some(d)) =>
      if 0 <= a < 16 && 0 <= b < 16 && 0 <= c < 16 && 0 <= d < 16
      then Some(((a * 16 + b) * 16 + c) * 16 + d) else None
    case _ => None
  }

  lemma HexDigitValue(d: int)
    requires 0 <= d < 16
    ensures HexValue(HexDigit(d)) == Some(d)
  {
  }

  /** Reading back four written hex digits gives the value. */
  lemma Hex4RoundTrip(v: int)
    requires 0 <= v < 0x1_0000
    ensures Hex4Value(Hex4(v)) == Some(v)
  {
    var a, b, c, d := v / 16 / 16 / 16, v / 16 / 16 % 16, v / 16 % 16, v % 16;
    HexDigitValue(a);
    HexDigitValue(b);
    HexDigitValue(c);
    HexDigitValue(d);
    assert v / 16 / 16 == a * 16 + b;
    assert v / 16 == (a * 16 + b) * 16 + c;
  }

  /** The text one character of a string is written as. */
  function EscapeChar(c: char): (s: seq<char>)
    ensures 0 < |s| && s[0] != '"'
  {
    if c == '"' then ['\\', '"']
    else if c == '\\' then ['\\', '\\']
    else if c == '\n' then ['\\', 'n']
    else if c == '\r' then ['\\', 'r']
    else if c == '\t' then ['\\', 't']
    else if NeedsUnicodeEscape(c) then ['\\', 'u'] + Hex4(c as int)
    else [c]
  }

  /** The escaped body of a string, without the surrounding quotes. */
  function Escape(s: string): seq<char> {
    if |s| == 0 then [] else EscapeChar(s[0]) + Escape(s[1..])
  }

  /** A string as a JSON string literal. */
  function Quote(s: string): seq<char> {
    ['"'] + Escape(s) + ['"']
  }

  /** Reads one (possibly escaped) character of a string literal's body,
      returning it with the number of input characters it took; fails on the
      closing quote, a dangling or unknown escape, or the end of input. */
  function ReadChar(t: seq<char>): (r: Option<(char, nat)>)
    ensures r.Some? ==> 0 < r.value.1 <= |t|
  {
    if |t| == 0 || t[0] == '"' then None
    else if t[0] != '\\' then Some((t[0], 1))
    else if |t| < 2 then None
    else if t[1] == '"' then Some(('"', 2))
    else if t[1] == '\\' then Some(('\\', 2))
    else if t[1] == 'n' then Some(('\n', 2))
    else if t[1] == 'r' then Some(('\r', 2))
    else if t[1] == 't' then Some(('\t', 2))
    else if t[1] == 'u' && |t| >= 6 then
      match Hex4Value(t[2..6])
      case Some(v) => if IsScalar(v) then Some((v as char, 6)) else None
      case None => None
    else None
  }

  /** Reading the text a character is written as gives the character back. */
  lemma ReadEscapedChar(c: char, rest: seq<char>)
    ensures ReadChar(EscapeChar(c) + rest) == Some((c, |EscapeChar(c)|))
  {
    var t := EscapeChar(c) + rest;
    if NeedsUnicodeEscape(c) && c != '\n' && c != '\r' && c != '\t' && c != '"' && c != '\\' {
      Hex4RoundTrip(c as int);
      assert t[2..6] == Hex4(c as int);
    }
  }

  /** Reads a string literal's body up to and including the closing quote,
      returning the decoded string and the remaining input. */
  function ReadBody(t: seq<char>): (r: Option<(string, seq<char>)>)
    ensures r.Some? ==> |r.value.1| < |t|
    decreases |t|
  {
    if |t| > 0 && t[0] == '"' then Some(([], t[1..]))
    else match ReadChar(t)
      case None => None
      case Some((c, n)) =>
        match ReadBody(t[n..])
        case None => None
        case Some((s, rest)) => Some(([c] + s, rest))
  }

  /** Reads a JSON string literal at the start of `t`. */
  function ReadString(t: seq<char>): (r: Option<(string, seq<char>)>)
    ensures r.Some? ==> |r.value.1| < |t|
  {
    if |t| > 0 && t[0] == '"' then ReadBody(t[1..]) else None
  }

  lemma {:induction false} ReadBodyEscaped(s: string, rest: seq<char>)
    ensures ReadBody(Escape(s) + ['"'] + rest) == Some((s, rest))
    decreases |s|
  {
    var t := Escape(s) + ['"'] + rest;
    if |s| == 0 {
      assert t == ['"'] + rest;
    } else {
      var e := EscapeChar(s[0]);
      var tail := Escape(s[1..]) + ['"'] + rest;
      assert t == e + tail;
      ReadEscapedChar(s[0], tail);
      assert t[|e|..] == tail;
      ReadBodyEscaped(s[1..], rest);
      assert [s[0]] + s[1..] == s;
    }
  }

  /** Reading back a quoted string gives the string and leaves what followed it. */
  lemma ReadQuoted(s: string, rest: seq<char>)
    ensures ReadString(Quote(s) + rest) == Some((s, rest))
  {
    var t := Quote(s) + rest;
    assert t[1..] == Escape(s) + ['"'] + rest;
    ReadBodyEscaped(s, rest);
  }

  /** Consumes the literal text `lit` at the start of `t`. */
  function Expect(lit: seq<char>, t: seq<char>): (r: Option<seq<char>>)
    ensures r.Some? ==> t == lit + r.value
  {
    if |lit| <= |t| && t[..|lit|] == lit then Some(t[|lit|..]) else None
  }

  lemma ExpectPrefix(lit: seq<char>, rest: seq<char>)
    ensures Expect(lit, lit + rest) == Some(rest)
  {
    assert (lit + rest)[..|lit|] == lit;
    assert (lit + rest)[|lit|..] == rest;
  }
}

=== FILE: memory_storage.dfy ===
/** The key/value backend contract (storage/policies.go) and its in-memory
    implementation (storage/memory_storage.go): a map from string keys to
    records, where storing the empty record deletes the key. The same
    definitions serve the decision store and the session store; `empty` is
    the record type's zero value. */
module MemoryStorage {
  import opened Records

  /** The map behind an in-memory storage. */
  datatype Memory<V> = Memory(storage: map<string, V>)

  /** The backend invariant: no key ever holds the empty record. */
  predicate NoEmpty<V(==)>(m: Memory<V>, empty: V) {
    forall k :: k in m.storage ==> m.storage[k] != empty
  }

  /** `Get`: the value under `key` and whether there is one; the zero value
      and false for a missing key. */
  function Get<V>(m: Memory<V>, empty: V, key: string): (r: (V, bool))
    ensures r.1 <==> key in m.storage
    ensures key !in m.storage ==> r == (empty, false)
    ensures key in m.storage ==> r.0 == m.storage[key]
  {
    if key in m.storage then (m.storage[key], true) else (empty, false)
  }

  /** `Store`: remembers `value` under `key`, or deletes `key` when `value` is
      the empty record. Read-after-write holds, every other key reads as
      before, and the invariant is kept. */
  function Store<V(==)>(m: Memory<V>, empty: V, key: string, value: V): (r: Memory<V>)
    ensures Get(r, empty, key) == (if value == empty then (empty, false) else (value, true))
    ensures forall k :: k != key ==> Get(r, empty, k) == Get(m, empty, k)
    ensures NoEmpty(m, empty) ==> NoEmpty(r, empty)
  {
    if value == empty then Memory(m.storage - {key}) else Memory(m.storage[key := value])
  }

  /** A freshly constructed storage: no key present. */
  function New<V>(): Memory<V> {
    Memory(map[])
  }

  /** `NewMemoryPolicyStorage`: every key reads as absent, and the invariant holds. */
  function NewPolicyStorage(): (m: Memory<StoredPolicy>)
    ensures forall k :: Get(m, EmptyPolicy, k) == (EmptyPolicy, false)
    ensures NoEmpty(m, EmptyPolicy)
  {
    New()
  }

  /** `NewMemorySessionStorage`: every key reads as absent, and the invariant holds. */
  function NewSessionStorage(): (m: Memory<StoredSession>)
    ensures forall k :: Get(m, EmptySession, k) == (EmptySession, false)
    ensures NoEmpty(m, EmptySession)
  {
    New()
  }

  /** Under the invariant, a key reads as present exactly when its record is non-empty. */
  lemma PresentIffNonEmpty<V>(m: Memory<V>, empty: V, key: string)
    requires NoEmpty(m, empty)
    ensures Get(m, empty, key).1 <==> Get(m, empty, key).0 != empty
  {
  }

  /** Deleting a key that is absent changes nothing. */
  lemma DeleteAbsent<V>(m: Memory<V>, empty: V, key: string)
    requires !Get(m, empty, key).1
    ensures Store(m, empty, key, empty) == m
  {
    assert m.storage - {key} == m.storage;
  }

  /** A later store to the same key overrides an earlier one. */
  lemma StoreOverrides<V>(m: Memory<V>, empty: V, key: string, v: V, w: V)
    ensures Store(Store(m, empty, key, v), empty, key, w) == Store(m, empty, key, w)
  {
    var r1 := Store(Store(m, empty, key, v), empty, key, w);
    var r2 := Store(m, empty, key, w);
    assert r1.storage == r2.storage;
  }
}

=== FILE: policies.dfy ===
/** The closed vocabulary of decisions a reviewer can take on an action
    (policies/policy.go): Allow, Always allow and Deny. */
module Policies {
  import opened Wrappers

  /** The Go `policy` struct: the four fields every policy carries. Its zero
      value is what the lookups hand back alongside their error. */
  datatype PolicyRecord = PolicyRecord(id: string, name: string, description: string, shortcut: string)

  /** The zero `policy{}`: every field empty. */
  const ZeroRecord: PolicyRecord := PolicyRecord("", "", "", "")

  /** The three decisions. The only other value of the Go `Policy` interface
      the source builds is the zero `policy{}` that the failed lookups return
      alongside their error; it appears here only as `ZeroRecord`. */
  datatype Policy = Allow | AllowAlways | Deny {

    /** The constant record behind each decision. */
    function Record(): PolicyRecord {
      match this
      case Allow => PolicyRecord("ALLOW", "Allow", "Allow the action once", "a")
      case AllowAlways => PolicyRecord("ALLOW_ALWAYS", "Always allow", "Always allow this action", "s")
      case Deny => PolicyRecord("DENY", "Deny", "Deny this action this time", "d")
    }

    /** The identifier used when the decision is persisted. */
    function Id(): string { Record().id }

    /** The display name. */
    function Name(): string { Record().name }

    /** The display description. */
    function Description(): string { Record().description }

    /** The one-letter shortcut the reviewer types. */
    function Shortcut(): string { Record().shortcut }
  }

  /** The list of all policies, in the source's order: every decision exactly once. */
  function All(): (r: seq<Policy>)
    ensures |r| == 3
    ensures forall p: Policy :: multiset(r)[p] == 1
    ensures r[0] == Allow && r[1] == AllowAlways && r[2] == Deny
  {
    var r := [Allow, AllowAlways, Deny];
    assert multiset(r) == multiset{Allow} + multiset{AllowAlways} + multiset{Deny};
    assert forall p: Policy :: multiset(r)[p] == 1 by {
      forall p: Policy ensures multiset(r)[p] == 1 {
        if p == Allow {
          assert multiset(r)[p] == 1 + 0 + 0;
        } else if p == AllowAlways {
          assert multiset(r)[p] == 0 + 1 + 0;
        } else {
          assert multiset(r)[p] == 0 + 0 + 1;
        }
      }
    }
    r
  }

  /** Whether some policy of `ps` has `value` in the chosen `field`; the
      for-range loops of ShortcutValid and IdValid. */
  function Contains(ps: seq<Policy>, field: Policy -> string, value: string): (b: bool)
    ensures b <==> exists p :: p in ps && field(p) == value
  {
    if |ps| == 0 then false
    else field(ps[0]) == value || Contains(ps[1..], field, value)
  }

  /** The first policy of `ps` whose `field` equals `value`; the for-range
      loops of ByShortcut and ById. */
  function Find(ps: seq<Policy>, field: Policy -> string, value: string): (r: Option<Policy>)
    ensures r.Some? ==> exists i :: 0 <= i < |ps| && ps[i] == r.value && field(ps[i]) == value
                                    && forall j :: 0 <= j < i ==> field(ps[j]) != value
    ensures r.None? <==> forall p :: p in ps ==> field(p) != value
  {
    if |ps| == 0 then None
    else if field(ps[0]) == value then Some(ps[0])
    else
      var r := Find(ps[1..], field, value);
      if r.Some? then
        assert forall p :: p in ps[1..] ==> p in ps;
        Some(r.value)
      else r
  }

  /** Whether one of the three policies has shortcut `sc`. */
  function ShortcutValid(sc: string): (b: bool)
    ensures b <==> exists p: Policy :: p.Shortcut() == sc
  {
    Contains(All(), (p: Policy) => p.Shortcut(), sc)
  }

  /** Whether one of the three policies has identifier `id`. */
  function IdValid(id: string): (b: bool)
    ensures b <==> exists p: Policy :: p.Id() == id
  {
    Contains(All(), (p: Policy) => p.Id(), id)
  }

  /** The policy with shortcut `sc`, or the not-found error. */
  function ByShortcut(sc: string): (r: Result<Policy, string>)
    ensures r.Success? ==> r.value.Shortcut() == sc
    ensures r.Failure? <==> forall p: Policy :: p.Shortcut() != sc
    ensures r.Failure? ==> r.error == "policy with shortcut not found"
  {
    match Find(All(), (p: Policy) => p.Shortcut(), sc)
    case Some(p) => Success(p)
    case None => Failure("policy with shortcut not found")
  }

  /** The policy with identifier `id`, or the not-found error. */
  function ById(id: string): (r: Result<Policy, string>)
    ensures r.Success? ==> r.value.Id() == id
    ensures r.Failure? <==> forall p: Policy :: p.Id() != id
    ensures r.Failure? ==> r.error == "policy with id not found"
  {
    match Find(All(), (p: Policy) => p.Id(), id)
    case Some(p) => Success(p)
    case None => Failure("policy with id not found")
  }

  /** The policy value a Go caller receives from a lookup: the found policy's
      record, or the zero record that accompanies the error. */
  function Returned(r: Result<Policy, string>): PolicyRecord {
    match r
    case Success(p) => p.Record()
    case Failure(_) => ZeroRecord
  }

  /** Identifiers are pairwise distinct, and so are shortcuts. */
  lemma Unique(p: Policy, q: Policy)
    ensures p.Id() == q.Id() ==> p == q
    ensures p.Shortcut() == q.Shortcut() ==> p == q
  {
  }

  /** Looking a policy up by its own identifier or shortcut gives it back. */
  lemma LookupRoundTrip(p: Policy)
    ensures ById(p.Id()) == Success(p)
    ensures ByShortcut(p.Shortcut()) == Success(p)
  {
    Unique(p, ById(p.Id()).value);
    Unique(p, ByShortcut(p.Shortcut()).value);
  }

  /** The validity predicates agree with the lookups in both directions. */
  lemma ValidIffFound(s: string)
    ensures ShortcutValid(s) <==> ByShortcut(s).Success?
    ensures IdValid(s) <==> ById(s).Success?
  {
  }

  /** An unknown identifier or shortcut yields an error together with the zero policy. */
  lemma UnknownGivesZero(s: string)
    ensures !IdValid(s) ==> ById(s).Failure? && Returned(ById(s)) == ZeroRecord
    ensures !ShortcutValid(s) ==> ByShortcut(s).Failure? && Returned(ByShortcut(s)) == ZeroRecord
  {
  }

  /** The accessors expose exactly the fields of the constant record. */
  lemma AccessorsMatchRecord(p: Policy)
    ensures p.Record() == PolicyRecord(p.Id(), p.Name(), p.Description(), p.Shortcut())
    ensures p.Record() != ZeroRecord
  {
  }
}

=== FILE: records.dfy ===
/** The storage representations of a decision and a session
    (storage/policies.go and the sessions backend), and the time stamps they carry. */
module Records {

  /** A point in time; 0 stands for Go's zero `time.Time`, which `time.Now()` never returns. */
  type Time = nat

  /** A cached decision: the policy identifier and when it was recorded. */
  datatype StoredPolicy = StoredPolicy(policyId: string, timestamp: Time)

  /** A stored session: its secret and when it was created. */
  datatype StoredSession = StoredSession(secret: string, created: Time)

  /** The zero `StoredPolicy{}`; storing it means deletion. */
  const EmptyPolicy: StoredPolicy := StoredPolicy("", 0)

  /** The zero `StoredSession{}`; storing it means deletion. */
  const EmptySession: StoredSession := StoredSession("", 0)

  /** A record counts as empty only when BOTH fields are zero: a record with an
      empty identifier but a real time stamp is an ordinary value. */
  lemma EmptyOnlyWhenBothZero(p: StoredPolicy, s: StoredSession)
    ensures p == EmptyPolicy <==> p.policyId == "" && p.timestamp == 0
    ensures s == EmptySession <==> s.secret == "" && s.created == 0
  {
  }
}

=== FILE: seqs.dfy ===
/** Small facts about sequence concatenation that the proofs cite by name
    instead of leaving the solver to rediscover them. */
module Seqs {

  /** Concatenation is associative. */
  lemma Assoc<T>(a: seq<T>, b: seq<T>, c: seq<T>)
    ensures a + b + c == a + (b + c)
  {
  }

  /** The three parts of `a + x + b` can be cut back out of it. */
  lemma Framed<T>(a: seq<T>, x: seq<T>, b: seq<T>)
    ensures |a + x + b| == |a| + |x| + |b|
    ensures (a + x + b)[..|a|] == a
    ensures (a + x + b)[|a|..|a| + |x|] == x
    ensures (a + x + b)[|a| + |x|..] == b
  {
  }
}

=== FILE: storage.dfy ===
/** The store that the rest of the program uses (storage/storage.go): decisions
    keyed by the action's cache key and validated against the closed policy
    set on the way out, and sessions keyed by their id. */
module Storage {
  import opened Wrappers
  import opened Records
  import opened Policies
  import opened Actions
  import MemoryStorage

  /** A session: an id and the secret that proves it. */
  datatype Session = Session(id: string, secret: string)

  /** The two backends behind the store. */
  datatype Store = Store(policyStore: MemoryStorage.Memory<StoredPolicy>,
                         sessionStore: MemoryStorage.Memory<StoredSession>)

  /** `storage.New` over two fresh in-memory backends. */
  function New(): (s: Store)
    ensures forall a :: PolicyOf(s, a) == None
    ensures forall id :: GetSession(s, id) == None
  {
    Store(MemoryStorage.NewPolicyStorage(), MemoryStorage.NewSessionStorage())
  }

  /** The backend record under the action's key (the zero record when absent). */
  function StoredFor(s: Store, a: Action): (StoredPolicy, bool) {
    MemoryStorage.Get(s.policyStore, EmptyPolicy, Hash(a))
  }

  /** Go's `store.Policy`: the cached decision for `a`. Absent when nothing, or the empty
      record, is stored, and also when the stored identifier is not one of
      the three (fails open); otherwise the policy with the stored identifier. */
  function PolicyOf(s: Store, a: Action): (r: Option<Policy>)
    ensures r.Some? ==> StoredFor(s, a).1 && r.value.Id() == StoredFor(s, a).0.policyId
    ensures r.None? <==> !StoredFor(s, a).1 || StoredFor(s, a).0 == EmptyPolicy
                          || forall p: Policy :: p.Id() != StoredFor(s, a).0.policyId
  {
    var (val, ok) := StoredFor(s, a);
    if !ok || val == EmptyPolicy || !IdValid(val.policyId) then None
    else Some(ById(val.policyId).value)
  }

  /** `SetPolicy`: records `p` for `a` with time stamp `now`, or deletes the
      record when `p` is None. Afterwards `PolicyOf(a)` reads back `p`. */
  function SetPolicy(s: Store, a: Action, p: Option<Policy>, now: Time): (r: Store)
    requires now > 0
    ensures PolicyOf(r, a) == p
    ensures StoredFor(r, a) == if p.None? then (EmptyPolicy, false) else (StoredPolicy(p.value.Id(), now), true)
    ensures r.sessionStore == s.sessionStore
  {
    if p.None? then s.(policyStore := MemoryStorage.Store(s.policyStore, EmptyPolicy, Hash(a), EmptyPolicy))
    else
      var rec := StoredPolicy(p.value.Id(), now);
      var r := s.(policyStore := MemoryStorage.Store(s.policyStore, EmptyPolicy, Hash(a), rec));
      assert rec != EmptyPolicy;
      PolicyReadsBack(r, a, p.value);
      r
  }

  /** A non-empty record holding a decision's identifier reads back as that decision. */
  lemma PolicyReadsBack(s: Store, a: Action, q: Policy)
    requires StoredFor(s, a).1 && StoredFor(s, a).0 != EmptyPolicy && StoredFor(s, a).0.policyId == q.Id()
    ensures PolicyOf(s, a) == Some(q)
  {
    LookupRoundTrip(q);
  }

  /** `Session`: the session stored under `id`, rebuilt from the stored secret. */
  function GetSession(s: Store, id: string): (r: Option<Session>)
    ensures r.Some? ==> r.value.id == id
    ensures r.Some? ==> r.value.secret == MemoryStorage.Get(s.sessionStore, EmptySession, id).0.secret
    ensures r.Some? <==> MemoryStorage.Get(s.sessionStore, EmptySession, id).1
                         && MemoryStorage.Get(s.sessionStore, EmptySession, id).0 != EmptySession
  {
    var (val, ok) := MemoryStorage.Get(s.sessionStore, EmptySession, id);
    if !ok || val == EmptySession then None else Some(Session(id, val.secret))
  }

  /** `SetSession`: stores the session's secret with creation time `now`. A nil
      session is a programming error (the source panics). Because `now` is not
      the zero time the record is never empty, so the session reads back even
      when its secret is "". */
  function SetSession(s: Store, session: Option<Session>, now: Time): (r: Store)
    requires session.Some?
    requires now > 0
    ensures GetSession(r, session.value.id) == session
    ensures MemoryStorage.Get(r.sessionStore, EmptySession, session.value.id)
            == (StoredSession(session.value.secret, now), true)
    ensures forall id :: id != session.value.id ==> GetSession(r, id) == GetSession(s, id)
    ensures r.policyStore == s.policyStore
  {
    var ses := session.value;
    s.(sessionStore := MemoryStorage.Store(s.sessionStore, EmptySession, ses.id, StoredSession(ses.secret, now)))
  }

  /** `DeleteSession`: afterwards no session is stored under `id`; other ids keep theirs. */
  function DeleteSession(s: Store, id: string): (r: Store)
    ensures GetSession(r, id) == None
    ensures MemoryStorage.Get(r.sessionStore, EmptySession, id) == (EmptySession, false)
    ensures forall other :: other != id ==> GetSession(r, other) == GetSession(s, other)
    ensures r.policyStore == s.policyStore
  {
    s.(sessionStore := MemoryStorage.Store(s.sessionStore, EmptySession, id, EmptySession))
  }

  /** Setting or deleting the decision for one action leaves every other
      action's decision as it was: distinct actions have distinct keys. */
  lemma SetPolicyFrame(s: Store, a: Action, p: Option<Policy>, now: Time, b: Action)
    requires now > 0
    requires b != a
    ensures PolicyOf(SetPolicy(s, a, p, now), b) == PolicyOf(s, b)
  {
    HashInjective(a, b);
    assert StoredFor(SetPolicy(s, a, p, now), b) == StoredFor(s, b);
  }
}

=== FILE: wrappers.dfy ===
/** Option and Result, the two failure-carrying shapes the model uses in place of
    Go's `(value, ok)` and `(value, error)` return pairs. */
module Wrappers {

  /** An optional value: Go's `nil` / `(zero, false)` becomes None. */
  datatype Option<+T> = None | Some(value: T)

  /** A value or an error: Go's `(value, error)` pair. */
  datatype Result<+R, +E> = Success(value: R) | Failure(error: E)
}
